=== FILE: README.md ===
# MorphQ differential-testing core, modelled in Dafny

MorphQ runs the same quantum program on two platforms or in two equivalent
forms. It then decides whether the two outcome histograms differ. This
project models the parts of the harness that make that decision, and the
bookkeeping around it:

- **Sample extraction** (`samples.dfy`). A histogram is an insertion-ordered
  dictionary from bit-string keys to counts. It is flattened into raw
  samples, either as the keys themselves or as the keys read in base 2
  (`int(key, 2)`). It is also expanded into a matrix of digits, one row per
  sample.
- **Detectors** (`detectors.dfy`). The KS, JS and Chi-Square detector
  classes. They are one `class`, `Detector`, tagged by a `Kind` that names
  the Python class. Its `Check` updates the fields that each Python
  class's `check` updates. scipy's `ks_2samp` and `jensenshannon` are
  function-valued parameters.
- **Running the detectors** (`runner.dfy`). `detect_divergence` fills a
  result map from the configured detector list.
- **Sample-size estimation** (`samplesize.dfy`). `estimate_n_samples_needed`
  either returns the fixed size or computes the qdiff formula. The formula
  is evaluated over exact reals, and `int(...)` becomes an integer square root.
- **The divergence scan** (`correction.dfy`). `scan_for_divergence` sorts
  the programs by p-value and walks the ranks against the Holm, Bonferroni
  or ascending BH thresholds. It cuts at the first violation and appends
  the divergent programs that are not recorded yet to a `DivergenceStore`.
  The store is a class standing in for the DIVERGENCE table.
- **Renumbering** (`reorder.dfy`). `reorder` sorts the programs by start
  time. It then produces two mapping records per program (source, then
  followup), named `1.fuzz`, `2.fuzz`, ... in that order.

`wrappers.dfy` holds `Option`, `Result` and the failures the harness can
raise. `sorting.dfy` holds an insertion sort by a real key. Its lemmas state
what every sorted arrangement of the same rows has in common, because
pandas' `sort_values` is not stable.

Where the code's behaviour is easy to misread, the model follows it:

- Any estimation strategy other than `None` or `"qdiff"` makes
  `estimate_n_samples_needed` return `None`, not raise.
- A confidence level below 0 is accepted.
- An unknown correction method fails only when the table has rows, since
  `threshold` is first read inside the loop. Over an empty table it
  appends nothing.
- In `"natural"` mode a key may carry a sign or a `0b` prefix, as `int(key, 2)`
  accepts them.
- The `"bh"` walk is ascending and stops at the first violation, like the
  other two. `AscendingBHStopsAtFirstViolation` shows an input on which this
  differs from the step-up Benjamini-Hochberg procedure.

## Model

| member | source | states |
|---|---|---|
| Samples.ParseBase2 | lib/detectors.py:25 | `int(key, 2)`: a non-empty string of 0s and 1s reads as its base-2 value; the empty string never parses |
| Samples.BitsValueOfFixedWidth | lib/detectors.py:25 | reading the w-digit binary numeral of n < 2^w back in base 2 gives n |
| Samples.ParseFixedWidth | lib/detectors.py:25 | every measured outcome of width w >= 1 round-trips through `int(key, 2)` |
| Samples.Represent | lib/detectors.py:24-25 | 'binary' keeps the key; 'natural' succeeds exactly when `int(key, 2)` does, gives its value, and otherwise fails with MalformedKey(key) |
| Samples.RawSamples | lib/detectors.py:14-28 | a successful extraction has as many samples as the counts add up to |
| Samples.ObtainRawSamples | lib/detectors.py:14-28 | the loop that extends the list key by key returns exactly RawSamples, error included |
| Samples.RawSamplesErrorPersists | lib/detectors.py:22-26 | once a prefix of the keys fails, the whole extraction fails with the same error |
| Samples.BinarySamples | lib/detectors.py:14-28 | the binary representation never fails and yields only labels |
| Samples.BinaryNeverFails | lib/detectors.py:14-28 | extraction in 'binary' mode always succeeds with labels only |
| Samples.RawSamplesFailIff | lib/detectors.py:22-26 | extraction fails if and only if some key, even one counted zero times, fails to convert |
| Samples.FailingKey | lib/detectors.py:22-26 | a failed extraction names a key whose conversion fails |
| Samples.RawSamplesStep | lib/detectors.py:22-26 | one step of the loop: it succeeds iff the prefix and the last key do, and appends `count` copies of the last key |
| Samples.SampleAt | lib/detectors.py:22-26 | sample number Total(s[..i]) + t, for t below key i's count, is key i's representation: contiguous blocks in iteration order |
| Samples.RawSamplesAppend | lib/detectors.py:21-28 | extraction of a concatenated histogram is the concatenation of the extractions, the first error winning |
| Samples.ZeroCountContributesNothing | lib/detectors.py:23-26 | a convertible key counted zero times can be dropped without changing the result |
| Samples.MalformedKeyCountedZeroStillFails | lib/detectors.py:24-26 | in 'natural' mode a malformed key fails the extraction even at count 0 |
| Samples.MultisetOfRepeat | lib/detectors.py:26 | `[value] * n` holds value n times and nothing else |
| Samples.BinaryMultiplicity | lib/detectors.py:14-28 | with distinct keys, each key occurs among the binary samples exactly as often as it is counted |
| Samples.NaturalFollowsBinary | lib/detectors.py:24-26 | the natural samples are the binary samples read in base 2, position by position |
| Samples.DigitValue | lib/detectors.py:39 | `int(x)` of one character succeeds iff it is an ASCII decimal digit, and then gives that digit's value, below 10 |
| Samples.DigitRow | lib/detectors.py:39 | `[int(x) for x in bin_string]` succeeds iff every character is an ASCII decimal digit, then holds the digit values, else fails with NotADigit |
| Samples.DigitRows | lib/detectors.py:38-41 | the comprehension succeeds iff every sample's row does, row j being sample j's |
| Samples.VStack | lib/detectors.py:38-41 | `np.vstack` succeeds iff there is at least one row and all rows have one length, and then returns the rows |
| Samples.MultivariateSamples | lib/detectors.py:31-42 | on success: one row per sample (at least one), row j the digits of binary sample j, all rows of equal width |
| Samples.SampleIsOccurringKey | lib/detectors.py:22-26 | every sample is the key of an entry with a positive count |
| Samples.OccurringKeyIsSample | lib/detectors.py:22-26 | every key with a positive count appears among the samples, at the start of its block |
| Samples.MultivariateOfBitStrings | lib/detectors.py:31-42 | for bit-string keys the matrix exists iff there is a sample and all occurring keys share one width; its entries are then 0 or 1 and its width is that of the keys |
| Detectors.DisplayName | lib/detectors.py:64-92 | no contract of its own: the `self.name` each `__init__` sets (lines 64, 76 and 92), one display name per detector class |
| Detectors.ClassNamed | lib/qfl.py:85 | `eval(detector_object)` finds exactly the three detector class names |
| Detectors.CheckResult | lib/detectors.py:61-96 | KS fails iff a side has no samples and otherwise reports `ks_2samp` of the binary samples; JS reports the distance with p-value -1 and fails iff the distance does; Chi-Square reports (0, 0) |
| Detectors.PValueInRangeOrSentinel | lib/detectors.py:66-96 | when `ks_2samp` keeps its p-values in [0, 1], every reported p-value is a probability or the sentinel -1 |
| Detectors.ChiSquareIgnoresInputs | lib/detectors.py:94-96 | the Chi-Square stub answers the same for any two histograms |
| Detectors.Detector.constructor | lib/detectors.py:61-92 | a new detector has its class's display name and no results, samples or statistics yet |
| Detectors.Detector.LoadResults | lib/detectors.py:47-53 | clears statistic and p-value, stores both inputs and their binary raw samples |
| Detectors.Detector.Check | lib/detectors.py:66-96 | returns CheckResult; KS reloads both inputs and records its outcome; JS records the distance and -1 and leaves the loaded inputs alone; Chi-Square changes nothing |
| Runner.RunOne | lib/qfl.py:84-89 | an unknown class name fails with UnknownDetector; otherwise it succeeds iff the check does, carrying the check's statistic and p-value with the measured time, and on failure reports the check's own error |
| Runner.Detections | lib/qfl.py:79-90 | no contract of its own: the recursive definition the loop is proved against (configurations in order, the first failure aborts the run, a later result overwrites an earlier one under the same name); its properties are the lemmas below |
| Runner.DetectDivergence | lib/qfl.py:79-90 | the loop over the configurations returns exactly Detections: the map after all configurations in order, or the first failure |
| Runner.DetectionsErrorPersists | lib/qfl.py:82-89 | once a prefix of the configurations fails, the whole run fails the same way |
| Runner.DetectionsFailIff | lib/qfl.py:82-89 | a run fails iff one of its configured detectors fails |
| Runner.FirstFailure | lib/qfl.py:82-89 | a failed run reports the error of a failing configuration, and every configuration before that one succeeded: the first failure aborts the run |
| Runner.DetectionsKeys | lib/qfl.py:82-90 | a successful run has one entry per configured name and no other |
| Runner.EntryFromConfig | lib/qfl.py:82-89 | every entry of a successful run is the result of some configuration that carries that entry's name |
| Runner.LastConfigWins | lib/qfl.py:83-89 | each name holds the result of the last configuration carrying it |
| SampleSize.FloorSqrt | lib/qfl.py:38 | `int` of a non-negative square root: the n with n^2 <= x < (n+1)^2 |
| SampleSize.FloorSqrtUnique | lib/qfl.py:38 | that n is unique |
| SampleSize.QdiffRadicand | lib/qfl.py:35-38 | 2^q / ((1 - c) t^4) is positive when c < 1 and t is not 0 |
| SampleSize.EstimateSamplesNeeded | lib/qfl.py:25-38 | no strategy gives the fixed size; a strategy other than "qdiff" gives None; "qdiff" fails iff c >= 1 or t = 0 (MathDomain when c > 1) and otherwise gives the integer square root of 2^q / ((1 - c) t^4) |
| SampleSize.QdiffExample | lib/qfl.py:34-38 | one qubit, threshold 0.1, confidence 0.99 call for 1414 shots |
| SampleSize.FullConfidenceFails | lib/qfl.py:38 | confidence 1 fails, whatever the other settings |
| Sorting.SortBy | lib/qfl.py:47 | `sort_values`: an ascending permutation of the rows |
| Sorting.SortedPermutationsShareKeys | lib/qfl.py:47 | any two sorted permutations of the same rows have the same key at every position |
| Sorting.SortedPrefixIsBelowCut | lib/qfl.py:64-67 | before a strict rise of the key, a sorted prefix holds exactly the rows whose key is below the key at the cut |
| Correction.PValueColumn | lib/qfl.py:46 | no contract of its own: the column name `divergence.<test>.p-value` the scan sorts on |
| Correction.ParseMethod | lib/qfl.py:53-58 | exactly "holm", "bonferroni" and "bh" select a threshold |
| Correction.Threshold | lib/qfl.py:53-58 | all three methods start at alpha / k at rank 1, and Holm and BH reach alpha itself at rank k |
| Correction.FirstViolation | lib/qfl.py:50-63 | the first rank from a start whose p-value exceeds its threshold, every rank before it passing |
| Correction.CutLength | lib/qfl.py:50-67 | the divergent prefix length: every rank before it passes, and the rank at it, if any, fails |
| Correction.Cut | lib/qfl.py:50-67 | a known method gives CutLength; an unknown one fails with UnassignedThreshold on a non-empty table and cuts nothing on an empty one |
| Correction.FindCut | lib/qfl.py:48-67 | the rank loop with its break returns exactly Cut |
| Correction.CutLengthUnique | lib/qfl.py:60-67 | only one length has every rank before it passing and the rank at it failing |
| Correction.NewDivergent | lib/qfl.py:68-70 | keeps each divergent row exactly as often as it is divergent when its id is not recorded, and no row whose id is; the rows kept stay in their sorted order (a subsequence of the divergent rows) |
| Correction.SortedScores | lib/qfl.py:46-47 | the rows scored by the p-value column, ascending, a permutation of the table |
| Correction.Divergent | lib/qfl.py:47-67 | for a known method, the divergent rows are exactly the sorted rows before the first failing rank (`CutLength`), or all rows when none fails; for an unknown method it succeeds iff the table is empty |
| Correction.Scan | lib/qfl.py:44-75 | a missing p-value column fails with MissingColumn; nothing appended has an id already recorded |
| Correction.IdsOf | lib/qfl.py:68 | the ids are exactly those of some row |
| Correction.DivergenceStore.constructor | lib/qfl.py:68-75 | the store starts with the given records: the DIVERGENCE table as it is before the scan reads and extends it |
| Correction.DivergenceStore.ProgramIds | lib/qfl.py:68 | `get_program_ids_in_table`: an id is returned iff some recorded row carries it |
| Correction.DivergenceStore.Insert | lib/qfl.py:75 | `update_database` appends one record |
| Correction.DivergenceStore.InsertAll | lib/qfl.py:74-75 | the insertion loop appends the rows in order |
| Correction.ScanForDivergence | lib/qfl.py:41-76 | returns Scan against the ids recorded before it; on success the store gains exactly those rows in order and their ids; on failure it is unchanged |
| Correction.IdsOfAppend | lib/qfl.py:74-75 | appending rows adds exactly their ids |
| Correction.ThresholdNonnegative | lib/qfl.py:53-58 | with alpha >= 0 every threshold is non-negative |
| Correction.ThresholdsNondecreasing | lib/qfl.py:53-58 | with alpha >= 0 each method's thresholds do not decrease with rank |
| Correction.CutSeparatesDistinctPValues | lib/qfl.py:50-67 | the last divergent p-value is strictly below the first non-divergent one |
| Correction.TieOrderIrrelevant | lib/qfl.py:47-67 | any two sorted arrangements of the same rows give the same cut and the same multiset of divergent rows |
| Correction.SortedPermutationsSamePValues | lib/qfl.py:47 | two sorted arrangements of the same rows have the same p-value sequence |
| Correction.PrefixesBelowSameCutAgree | lib/qfl.py:64-67 | two sorted arrangements cut at the same strict rise have prefixes with the same rows |
| Correction.DivergentBelowNonDivergent | lib/qfl.py:47-67 | no divergent p-value exceeds a non-divergent one, each divergent p-value is within its rank's threshold, and the first non-divergent row's p-value exceeds its rank's threshold |
| Correction.CutMonotone | lib/qfl.py:53-63 | thresholds no larger at every rank never give a longer divergent prefix |
| Correction.BonferroniWithinHolm | lib/qfl.py:53-63 | Bonferroni declares no more rows divergent than Holm |
| Correction.HolmWithinBH | lib/qfl.py:53-63 | Holm declares no more rows divergent than the ascending BH walk |
| Correction.HolmBelowBH | lib/qfl.py:54-58 | Holm's threshold is at most BH's at every rank |
| Correction.SentinelMakesAllDivergent | lib/qfl.py:50-65 | when every p-value is the sentinel -1, every row is divergent |
| Correction.ExampleCuts | lib/qfl.py:50-67 | p-values 0.001, 0.01, 0.02, 0.5, 0.9 at alpha 0.05: Bonferroni and Holm cut at 2, BH at 3 |
| Correction.AscendingBHStopsAtFirstViolation | lib/qfl.py:57-63 | p-values 0.03, 0.04 at alpha 0.05: the BH walk cuts at 0 although rank 2 is within its threshold |
| Correction.EmptyTableAppendsNothing | lib/qfl.py:48-71 | an empty table appends nothing, whatever the method name |
| Correction.UnknownMethodFails | lib/qfl.py:53-60 | an unknown method name fails on any non-empty table that has the column |
| Correction.ScanAppendsNewDivergent | lib/qfl.py:68-75 | the rows appended are the divergent rows with new ids, each as often as it is divergent |
| Correction.ScanIdempotent | lib/qfl.py:68-75 | scanning again after recording the first scan's rows appends nothing |
| Reorder.JoinShape | lib/coverage/reorder_files.py:17-20 | `os.path.join` ends with its second part; unless that is absolute it starts with the first, with one separator between them when needed |
| Reorder.Join | lib/coverage/reorder_files.py:17-20 | no contract of its own: the two-part `posixpath.join` used here and for both paths at lines 43-44 (an absolute second part replaces the first; otherwise one separator is inserted unless the first is empty or already ends with one); its shape is stated by JoinShape |
| Reorder.ProgramsDir | lib/coverage/reorder_files.py:17 | no contract of its own: `<exp>/programs`, built with Join |
| Reorder.OutputDir | lib/coverage/reorder_files.py:18 | no contract of its own: `<exp>/programs_sorted`, built with Join |
| Reorder.SourceDir | lib/coverage/reorder_files.py:19 | no contract of its own: `<exp>/programs/source`, built with Join |
| Reorder.FollowupDir | lib/coverage/reorder_files.py:20 | no contract of its own: `<exp>/programs/followup`, built with Join |
| Reorder.LayoutOf | lib/coverage/reorder_files.py:17-20 | no contract of its own: the source, followup and output directories of an experiment folder, which `Reorder.Reorder`'s contract is stated against |
| Reorder.NatToString | lib/coverage/reorder_files.py:42 | `str(i)` for a counter: the numeral is non-empty; its meaning is stated by DecimalRoundTrip and NatToStringInjective |
| Reorder.FuzzName | lib/coverage/reorder_files.py:42 | no contract of its own: the new file name `<i>.fuzz`; FuzzNameInjective and FuzzNameExamples state what it gives |
| Reorder.DecimalRoundTrip | lib/coverage/reorder_files.py:42 | the decimal numeral of n reads back as n |
| Reorder.NatToStringInjective | lib/coverage/reorder_files.py:42 | distinct counters have distinct numerals |
| Reorder.FuzzNameInjective | lib/coverage/reorder_files.py:42 | distinct counters give distinct `<i>.fuzz` names |
| Reorder.FuzzNameExamples | lib/coverage/reorder_files.py:42 | counters 1 and 12 give "1.fuzz" and "12.fuzz" |
| Reorder.ProcessingOrder | lib/coverage/reorder_files.py:34-35 | the programs ascending by `abs_start_time`, a permutation of the table |
| Reorder.SortedIds | lib/coverage/reorder_files.py:35 | the program ids in processing order, position by position |
| Reorder.Mapping | lib/coverage/reorder_files.py:37-52 | two records per program |
| Reorder.Reorder | lib/coverage/reorder_files.py:16-52 | the nested loops produce exactly Mapping of the programs in start-time order under the experiment's directories |
| Reorder.RecordFor | lib/coverage/reorder_files.py:41-50 | no contract of its own: the `mapping_record` dict for one program, version and counter (old id kept, new name `<counter>.fuzz`, old path under the version directory, new path under the output directory); what the records of a whole run hold is stated by MappingAt and MappingInPairs |
| Reorder.MappingAt | lib/coverage/reorder_files.py:40-51 | records 2j and 2j+1 are program j's source and followup, with counters 2j+1 and 2j+2 |
| Reorder.MappingInPairs | lib/coverage/reorder_files.py:37-52 | record 2j and 2j+1 come from program j's source and followup paths; record j is renamed `<j+1>.fuzz` in the output directory; no two records share a new name |
| Reorder.EveryProgramRenumbered | lib/coverage/reorder_files.py:34-52 | every program of the table gets a source and a followup record, under consecutive counters |
| Reorder.EarlierNumberStartedNoLater | lib/coverage/reorder_files.py:34-51 | a file numbered earlier belongs to a program that started no later |
| Reorder.NewNamesDistinct | lib/coverage/reorder_files.py:42-51 | numbering records 1, 2, ... gives each its own new name |

## Left out

- `ks_2samp` and `jensenshannon` are parameters of the model (`Detectors.Statistics`). Their values, and the key alignment that `convert_dict_to_df` and the pivot do before `jensenshannon`, are not modelled.
- Samples.ParseBase2: `int(key, 2)` also accepts surrounding whitespace, underscores between digits and non-ASCII digits. The model rejects these, and its contract states only the plain-digit case and that the empty string fails.
- Samples.DigitRow: Python's `int(x)` also accepts a non-ASCII decimal digit (such as an Arabic-Indic or full-width digit) as that digit's value. The model accepts only '0' to '9' and fails on any other character.
- Reorder.NatToString: its contract states only that the numeral is non-empty. What it means is stated by `DecimalRoundTrip` and `NatToStringInjective`.
- SampleSize.EstimateSamplesNeeded: the formula is evaluated over exact reals. Floating-point rounding in `sqrt`, `**` and the product can move the truncated result by one near integer boundaries. Python also raises OverflowError where a float over- or underflows, and the model returns a value in those cases. This happens when |t| is below about 1e-154 (`t**(-2)`), with 1024 or more qubits (`sqrt(2**q)`), and when the product is infinite (`int(inf)`). Negative qubit counts are excluded by the `nat` type.
- Floating-point p-values, NaN included, are modelled as reals. Comparisons with NaN are not modelled.
- Counts are natural numbers. A negative count, which `[value] * n` turns into no samples, is not representable.
- The SQLite database is not modelled. Reading QFLDATA becomes a `Table` argument. The DIVERGENCE table becomes `DivergenceStore`, and `update_database` becomes appending a record. Connection handling and SQL errors are left out.
- Correction.ScanForDivergence requires a rectangular table (every row has every column), as a data frame read from SQL always is. Only the program id and the numeric columns of a row are kept.
- `eval(detector_object)` is modelled by `ClassNamed`, which recognises the three detector class names. Any other expression, and any side effect of `eval`, is left out.
- The timer is a parameter: `elapsed(i)` is the duration of the i-th check.
- A missing configuration key (a `KeyError`) is not modelled. Neither is a `detectors` list of `None`, which fails before the loop starts.
- Python creates a detector's attributes on first use. The model does not distinguish an attribute that is absent from one set to `None`.
- pandas sorts one column with an unstable quicksort. The model sorts with one fixed insertion sort. For the scan, `TieOrderIrrelevant` proves that the cut and the multiset of divergent rows do not depend on how ties come out. Through `NewDivergent`'s counts, neither does the multiset of appended rows. The order in which tied rows are appended to DIVERGENCE does depend on it, and the model fixes one. For the renumbering, programs with equal start times may be numbered in either order, and the model fixes one.
- Reorder.Reorder: copying the files (`cp`), creating the output directory, reading the database, the progress bar, the command-line option and writing `program_order_mapping.csv` are left out. The method returns the records the CSV would hold.
- `setup_environment`, the rest of `lib/qfl.py`, and `lib/coverage/cumulative_coverage.py` are not part of this model.
- Printing (the `i*` and new-divergent messages) is left out.

=== FILE: correction.dfy ===
/**
  scan_for_divergence (lib/qfl.py): a multiple-comparison correction over the
  per-program p-values of one test. The rows are sorted by p-value and walked
  in ascending order; the walk stops at the first rank whose p-value exceeds
  that rank's threshold, and the rows before it are divergent. Divergent rows
  whose program is not yet recorded are appended to the DIVERGENCE table.
*/
module Correction {
  import opened Wrappers
  import opened Sorting
  import SampleSize

  /** One row of the QFLDATA table: the program id and the numeric columns. */
  datatype Row = Row(programId: string, fields: map<string, real>)

  /** The QFLDATA table as read from the database, in its row order. */
  datatype Table = Table(columns: set<string>, rows: seq<Row>)

  /** Every row of a data frame has a value in every column. */
  ghost predicate Rectangular(t: Table) {
    forall j :: 0 <= j < |t.rows| ==> t.rows[j].fields.Keys == t.columns
  }

  /** The column holding a test's p-values. */
  function PValueColumn(testName: string): string {
    "divergence." + testName + ".p-value"
  }

  /** A row together with its value in the p-value column. */
  datatype Scored = Scored(row: Row, p: real)

  function PValueOf(s: Scored): real {
    s.p
  }

  function ScoreRows(rows: seq<Row>, column: string): (r: seq<Scored>)
    requires forall j :: 0 <= j < |rows| ==> column in rows[j].fields
    ensures |r| == |rows|
    ensures forall j :: 0 <= j < |r| ==> r[j] == Scored(rows[j], rows[j].fields[column])
  {
    seq(|rows|, j requires 0 <= j < |rows| => Scored(rows[j], rows[j].fields[column]))
  }

  function PValues(s: seq<Scored>): (ps: seq<real>)
    ensures |ps| == |s|
    ensures forall j :: 0 <= j < |s| ==> ps[j] == s[j].p
  {
    seq(|s|, j requires 0 <= j < |s| => s[j].p)
  }

  function RowsOf(s: seq<Scored>): (rows: seq<Row>)
    ensures |rows| == |s|
    ensures forall j :: 0 <= j < |s| ==> rows[j] == s[j].row
  {
    seq(|s|, j requires 0 <= j < |s| => s[j].row)
  }

  // ---------------------------------------------------------------------
  // Thresholds
  // ---------------------------------------------------------------------

  /** The three recognised values of `method`. */
  datatype Method = Holm | Bonferroni | BH

  function ParseMethod(name: string): (r: Option<Method>)
    ensures r == Some(Holm) <==> name == "holm"
    ensures r == Some(Bonferroni) <==> name == "bonferroni"
    ensures r == Some(BH) <==> name == "bh"
  {
    if name == "holm" then Some(Holm)
    else if name == "bonferroni" then Some(Bonferroni)
    else if name == "bh" then Some(BH)
    else None
  }

  /** The threshold at 1-based rank `ordinal` of k rows. */
  function Threshold(m: Method, alpha: real, k: nat, ordinal: nat): (t: real)
    requires 1 <= ordinal <= k
    ensures ordinal == 1 ==> t * k as real == alpha
    ensures m != Bonferroni && ordinal == k ==> t == alpha
  {
    match m
    case Holm => alpha / (k - ordinal + 1) as real
    case Bonferroni => alpha / k as real
    case BH => (alpha / k as real) * ordinal as real
  }

  /** Rank `ordinal` passes when its p-value does not exceed its threshold. */
  predicate Passes(ps: seq<real>, m: Method, alpha: real, i: nat)
    requires i < |ps|
  {
    ps[i] <= Threshold(m, alpha, |ps|, i + 1)
  }

  /** The 0-based position of the first rank at or after `from` that fails, if any. */
  function FirstViolation(ps: seq<real>, m: Method, alpha: real, from: nat): (r: Option<nat>)
    requires from <= |ps|
    ensures r.Some? ==> from <= r.value < |ps| && !Passes(ps, m, alpha, r.value)
    ensures forall j :: from <= j < (if r.Some? then r.value else |ps|) ==> Passes(ps, m, alpha, j)
    decreases |ps| - from
  {
    if from == |ps| then None
    else if !Passes(ps, m, alpha, from) then Some(from)
    else FirstViolation(ps, m, alpha, from + 1)
  }

  /**
    The number of divergent rows: every rank before the cut passes, and the
    rank at the cut, if there is one, fails.
  */
  function CutLength(ps: seq<real>, m: Method, alpha: real): (n: nat)
    ensures n <= |ps|
    ensures forall j :: 0 <= j < n ==> Passes(ps, m, alpha, j)
    ensures n < |ps| ==> !Passes(ps, m, alpha, n)
  {
    match FirstViolation(ps, m, alpha, 0)
    case None => |ps|
    case Some(i) => i
  }

  /**
    The cut for a method name. An unknown name leaves `threshold` unbound,
    which raises at the first rank; with no rows the loop never runs.
  */
  function Cut(ps: seq<real>, name: string, alpha: real): (r: Result<nat, Failure>)
    ensures ParseMethod(name).Some? ==> r == Ok(CutLength(ps, ParseMethod(name).value, alpha))
    ensures ParseMethod(name).None? ==> r == (if ps == [] then Ok(0) else Err(UnassignedThreshold))
  {
    match ParseMethod(name)
    case Some(m) => Ok(CutLength(ps, m, alpha))
    case None => if ps == [] then Ok(0) else Err(UnassignedThreshold)
  }

  /** The loop over the sorted p-values, with its early break. */
  method FindCut(ps: seq<real>, name: string, alpha: real) returns (r: Result<nat, Failure>)
    ensures r == Cut(ps, name, alpha)
  {
    ghost var m := ParseMethod(name);
    var k := |ps|;
    var iStar: Option<nat> := None;
    var i := 0;
    while i < k
      invariant 0 <= i <= k
      invariant m.None? ==> i == 0
      invariant m.Some? ==> forall j :: 0 <= j < i ==> Passes(ps, m.value, alpha, j)
    {
      var ordinal := i + 1;
      var threshold: real;
      if name == "holm" {
        threshold := alpha / (k - ordinal + 1) as real;
      } else if name == "bonferroni" {
        threshold := alpha / k as real;
      } else if name == "bh" {
        threshold := (alpha / k as real) * ordinal as real;
      } else {
        return Err(UnassignedThreshold);
      }
      assert threshold == Threshold(m.value, alpha, k, ordinal);
      if ps[i] > threshold {
        iStar := Some(i);
        break;
      }
      i := i + 1;
    }
    if iStar.None? {
      r := Ok(k);
    } else {
      r := Ok(iStar.value);
    }
    if m.Some? {
      CutLengthUnique(ps, m.value, alpha, r.value);
    }
  }

  /** Only one length has every rank before it passing and the rank at it failing. */
  lemma CutLengthUnique(ps: seq<real>, m: Method, alpha: real, n: nat)
    requires n <= |ps|
    requires forall j :: 0 <= j < n ==> Passes(ps, m, alpha, j)
    requires n < |ps| ==> !Passes(ps, m, alpha, n)
    ensures CutLength(ps, m, alpha) == n
  {
  }

  // ---------------------------------------------------------------------
  // The scan
  // ---------------------------------------------------------------------

  /** a is b with some of its elements left out and the others kept in their order. */
  ghost predicate Subsequence<T>(a: seq<T>, b: seq<T>)
    decreases |b|
  {
    if a == [] then true
    else if b == [] then false
    else (a[|a| - 1] == b[|b| - 1] && Subsequence(a[..|a| - 1], b[..|b| - 1])) || Subsequence(a, b[..|b| - 1])
  }

  /** The divergent rows whose program is not recorded yet, in order. */
  function NewDivergent(divergent: seq<Row>, existing: set<string>): (r: seq<Row>)
    ensures forall row :: multiset(r)[row] == if row.programId in existing then 0 else multiset(divergent)[row]
    ensures forall j :: 0 <= j < |r| ==> r[j].programId !in existing
    ensures Subsequence(r, divergent)
  {
    if divergent == [] then []
    else
      var n := |divergent| - 1;
      var rest := NewDivergent(divergent[..n], existing);
      NewDivergentCounts(rest, divergent, existing);
      if divergent[n].programId in existing then
        SubsequenceDrop(rest, divergent);
        rest
      else
        SubsequenceKeep(rest, divergent);
        rest + [divergent[n]]
  }

  /** One step of the filter keeps every row's count right. */
  lemma NewDivergentCounts(rest: seq<Row>, divergent: seq<Row>, existing: set<string>)
    requires divergent != []
    requires forall row :: multiset(rest)[row] == if row.programId in existing then 0 else multiset(divergent[..|divergent| - 1])[row]
    ensures var last := divergent[|divergent| - 1];
      var r := if last.programId in existing then rest else rest + [last];
      forall row :: multiset(r)[row] == if row.programId in existing then 0 else multiset(divergent)[row]
  {
    assert divergent == divergent[..|divergent| - 1] + [divergent[|divergent| - 1]];
  }

  lemma SubsequenceDrop<T>(a: seq<T>, b: seq<T>)
    requires b != [] && Subsequence(a, b[..|b| - 1])
    ensures Subsequence(a, b)
  {
  }

  lemma SubsequenceKeep<T>(a: seq<T>, b: seq<T>)
    requires b != [] && Subsequence(a, b[..|b| - 1])
    ensures Subsequence(a + [b[|b| - 1]], b)
  {
    assert (a + [b[|b| - 1]])[..|a|] == a;
  }

  /** The sorted rows of a table, by the p-value column (present in every row). */
  function SortedScores(table: Table, column: string): (s: seq<Scored>)
    requires Rectangular(table) && column in table.columns
    ensures SortedBy(s, PValueOf)
    ensures multiset(s) == multiset(ScoreRows(table.rows, column))
  {
    SortBy(ScoreRows(table.rows, column), PValueOf)
  }

  /** The divergent rows of the sorted table, before deduplication. */
  function Divergent(table: Table, column: string, name: string, alpha: real): (r: Result<seq<Scored>, Failure>)
    requires Rectangular(table) && column in table.columns
    ensures r.Ok? ==> var s := SortedScores(table, column); |r.value| <= |s| && r.value == s[..|r.value|]
    ensures ParseMethod(name).Some? ==>
      var s := SortedScores(table, column);
      r == Ok(s[..CutLength(PValues(s), ParseMethod(name).value, alpha)])
    ensures ParseMethod(name).None? ==> (r.Ok? <==> table.rows == [])
  {
    var sorted := SortedScores(table, column);
    var cut :- Cut(PValues(sorted), name, alpha);
    Ok(sorted[..cut])
  }

  /**
    What one scan appends to DIVERGENCE, given the ids already there. Sorting
    on a column the table lacks raises.
  */
  function Scan(table: Table, testName: string, alpha: real, name: string, existing: set<string>): (r: Result<seq<Row>, Failure>)
    requires Rectangular(table)
    ensures PValueColumn(testName) !in table.columns ==> r == Err(MissingColumn(PValueColumn(testName)))
    ensures forall j :: r.Ok? && 0 <= j < |r.value| ==> r.value[j].programId !in existing
  {
    var column := PValueColumn(testName);
    if column !in table.columns then Err(MissingColumn(column))
    else
      var divergent :- Divergent(table, column, name, alpha);
      Ok(NewDivergent(RowsOf(divergent), existing))
  }

  /** The program ids that occur in a sequence of rows. */
  function IdsOf(rows: seq<Row>): (ids: set<string>)
    ensures forall id :: id in ids <==> exists j :: 0 <= j < |rows| && rows[j].programId == id
  {
    set j | 0 <= j < |rows| :: rows[j].programId
  }

  /** The DIVERGENCE table. */
  class DivergenceStore {
    var records: seq<Row>

    constructor (records: seq<Row>)
      ensures this.records == records
    {
      this.records := records;
    }

    /** get_program_ids_in_table: the ids of the recorded programs. */
    function ProgramIds(): (ids: set<string>)
      reads this
      ensures forall id :: id in ids <==> exists j :: 0 <= j < |records| && records[j].programId == id
    {
      IdsOf(records)
    }

    /** update_database: insert one record. */
    method Insert(row: Row)
      modifies this
      ensures records == old(records) + [row]
    {
      records := records + [row];
    }

    /** The loop of scan_for_divergence that inserts the new records in order. */
    method InsertAll(rows: seq<Row>)
      modifies this
      ensures records == old(records) + rows
    {
      var j := 0;
      while j < |rows|
        invariant 0 <= j <= |rows|
        invariant records == old(records) + rows[..j]
      {
        Insert(rows[j]);
        assert rows[..j + 1] == rows[..j] + [rows[j]];
        j := j + 1;
      }
      assert rows[..|rows|] == rows;
    }
  }

  /**
    scan_for_divergence over a table already read from QFLDATA: find the
    divergent rows and append the new ones to the store, one by one. On an
    error nothing is appended.
  */
  method ScanForDivergence(table: Table, testName: string, alpha: real, name: string, store: DivergenceStore)
    returns (r: Result<seq<Row>, Failure>)
    requires Rectangular(table)
    modifies store
    ensures r == Scan(table, testName, alpha, name, old(store.ProgramIds()))
    ensures r.Ok? ==> store.records == old(store.records) + r.value
    ensures r.Ok? ==> store.ProgramIds() == old(store.ProgramIds()) + IdsOf(r.value)
    ensures r.Err? ==> store.records == old(store.records)
  {
    var column := PValueColumn(testName);
    if column !in table.columns {
      return Err(MissingColumn(column));
    }
    var sorted := SortedScores(table, column);
    var cut := FindCut(PValues(sorted), name, alpha);
    if cut.Err? {
      return Err(cut.error);
    }
    var divergent := sorted[..cut.value];
    assert Divergent(table, column, name, alpha) == Ok(divergent);
    var existing := store.ProgramIds();
    var added := NewDivergent(RowsOf(divergent), existing);
    assert Scan(table, testName, alpha, name, existing) == Ok(added);
    store.InsertAll(added);
    IdsOfAppend(old(store.records), added);
    r := Ok(added);
  }

  lemma IdsOfAppend(a: seq<Row>, b: seq<Row>)
    ensures IdsOf(a + b) == IdsOf(a) + IdsOf(b)
  {
    forall id | id in IdsOf(a + b)
      ensures id in IdsOf(a) + IdsOf(b)
    {
      var j :| 0 <= j < |a + b| && (a + b)[j].programId == id;
      if j >= |a| {
        assert b[j - |a|] == (a + b)[j];
      }
    }
    forall id | id in IdsOf(a) + IdsOf(b)
      ensures id in IdsOf(a + b)
    {
      if id in IdsOf(a) {
        var j :| 0 <= j < |a| && a[j].programId == id;
        assert (a + b)[j] == a[j];
      } else {
        var j :| 0 <= j < |b| && b[j].programId == id;
        assert (a + b)[|a| + j] == b[j];
      }
    }
  }

  // ---------------------------------------------------------------------
  // Properties of the thresholds
  // ---------------------------------------------------------------------

  lemma ProductNonnegative(x: real, y: real)
    requires x >= 0.0 && y >= 0.0
    ensures x * y >= 0.0
  {
  }

  lemma QuotientNonnegative(a: real, b: real)
    requires a >= 0.0 && b > 0.0
    ensures a / b >= 0.0
  {
    assert (a / b) * b == a;
  }

  /** x * b <= x * d when x >= 0 and b <= d. */
  lemma ScaleMonotone(x: real, b: real, d: real)
    requires x >= 0.0 && b <= d
    ensures x * b <= x * d
  {
    ProductNonnegative(x, d - b);
    assert x * d - x * b == x * (d - b);
  }

  /** a / d <= a / b when a >= 0 and 0 < b <= d. */
  lemma DivideByLarger(a: real, b: real, d: real)
    requires a >= 0.0 && 0.0 < b <= d
    ensures a / d <= a / b
  {
    QuotientNonnegative(a, d);
    ScaleMonotone(a / d, b, d);
    assert (a / d) * d == a;
    assert (a / b) * b == a;
    assert (a / d) * b <= (a / b) * b;
  }

  /** With a non-negative alpha every threshold is non-negative. */
  lemma ThresholdNonnegative(m: Method, alpha: real, k: nat, ordinal: nat)
    requires alpha >= 0.0 && 1 <= ordinal <= k
    ensures Threshold(m, alpha, k, ordinal) >= 0.0
  {
    match m
    case Holm => QuotientNonnegative(alpha, (k - ordinal + 1) as real);
    case Bonferroni => QuotientNonnegative(alpha, k as real);
    case BH =>
      QuotientNonnegative(alpha, k as real);
      ProductNonnegative(alpha / k as real, ordinal as real);
  }

  /** With a non-negative alpha all three threshold sequences are non-decreasing in rank. */
  lemma ThresholdsNondecreasing(m: Method, alpha: real, k: nat, i: nat, j: nat)
    requires alpha >= 0.0 && 1 <= i <= j <= k
    ensures Threshold(m, alpha, k, i) <= Threshold(m, alpha, k, j)
  {
    match m
    case Holm => DivideByLarger(alpha, (k - j + 1) as real, (k - i + 1) as real);
    case Bonferroni =>
    case BH =>
      QuotientNonnegative(alpha, k as real);
      ScaleMonotone(alpha / k as real, i as real, j as real);
  }

  // ---------------------------------------------------------------------
  // Properties of the cut
  // ---------------------------------------------------------------------

  /**
    The cut never falls between two equal p-values: the last divergent
    p-value is strictly below the first non-divergent one.
  */
  lemma CutSeparatesDistinctPValues(ps: seq<real>, m: Method, alpha: real)
    requires alpha >= 0.0
    ensures var n := CutLength(ps, m, alpha); 0 < n < |ps| ==> ps[n - 1] < ps[n]
  {
    var n := CutLength(ps, m, alpha);
    if 0 < n < |ps| {
      assert Passes(ps, m, alpha, n - 1);
      ThresholdsNondecreasing(m, alpha, |ps|, n, n + 1);
    }
  }

  /**
    pandas may order rows with equal p-values either way. Any two sorted
    arrangements of the same scored rows yield the same divergent rows.
  */
  lemma TieOrderIrrelevant(s1: seq<Scored>, s2: seq<Scored>, m: Method, alpha: real)
    requires SortedBy(s1, PValueOf) && SortedBy(s2, PValueOf)
    requires multiset(s1) == multiset(s2) && alpha >= 0.0
    ensures CutLength(PValues(s1), m, alpha) == CutLength(PValues(s2), m, alpha)
    ensures multiset(s1[..CutLength(PValues(s1), m, alpha)]) == multiset(s2[..CutLength(PValues(s2), m, alpha)])
  {
    SortedPermutationsSamePValues(s1, s2);
    var ps := PValues(s1);
    var n := CutLength(ps, m, alpha);
    if n == |s1| {
      assert s1[..n] == s1 && s2[..n] == s2;
    } else if n > 0 {
      CutSeparatesDistinctPValues(ps, m, alpha);
      PrefixesBelowSameCutAgree(s1, s2, n);
    }
  }

  lemma SortedPermutationsSamePValues(s1: seq<Scored>, s2: seq<Scored>)
    requires SortedBy(s1, PValueOf) && SortedBy(s2, PValueOf)
    requires multiset(s1) == multiset(s2)
    ensures PValues(s1) == PValues(s2)
  {
    SortedPermutationsShareKeys(s1, s2, PValueOf);
  }

  /** Two sorted permutations cut at the same strict rise of the key have the same prefix contents. */
  lemma PrefixesBelowSameCutAgree(s1: seq<Scored>, s2: seq<Scored>, n: nat)
    requires SortedBy(s1, PValueOf) && SortedBy(s2, PValueOf)
    requires multiset(s1) == multiset(s2) && 0 < n < |s1| == |s2|
    requires s1[n].p == s2[n].p && s1[n - 1].p < s1[n].p && s2[n - 1].p < s2[n].p
    ensures multiset(s1[..n]) == multiset(s2[..n])
  {
    SortedPrefixIsBelowCut(s1, n, PValueOf);
    SortedPrefixIsBelowCut(s2, n, PValueOf);
    assert forall x :: multiset(s1[..n])[x] == multiset(s2[..n])[x];
  }

  /**
    A successful scan's divergent rows are a prefix of the sorted rows in
    which each p-value is within its rank's threshold, and no divergent
    p-value exceeds a non-divergent one.
  */
  lemma DivergentBelowNonDivergent(table: Table, column: string, name: string, alpha: real)
    requires Rectangular(table) && column in table.columns
    requires Divergent(table, column, name, alpha).Ok?
    ensures var s := SortedScores(table, column);
      var d := Divergent(table, column, name, alpha).value;
      && (forall i, j :: 0 <= i < |d| <= j < |s| ==> d[i].p <= s[j].p)
      && (ParseMethod(name).Some? ==> forall i :: 0 <= i < |d| ==> d[i].p <= Threshold(ParseMethod(name).value, alpha, |s|, i + 1))
      && (ParseMethod(name).Some? && |d| < |s| ==> s[|d|].p > Threshold(ParseMethod(name).value, alpha, |s|, |d| + 1))
  {
    var s := SortedScores(table, column);
    var d := Divergent(table, column, name, alpha).value;
    forall i, j | 0 <= i < |d| <= j < |s|
      ensures d[i].p <= s[j].p
    {
      assert d[i] == s[i];
      assert PValueOf(s[i]) <= PValueOf(s[j]);
    }
    if ParseMethod(name).Some? {
      forall i | 0 <= i < |d|
        ensures d[i].p <= Threshold(ParseMethod(name).value, alpha, |s|, i + 1)
      {
        assert d[i] == s[i];
        assert Passes(PValues(s), ParseMethod(name).value, alpha, i);
      }
      if |d| < |s| {
        assert !Passes(PValues(s), ParseMethod(name).value, alpha, |d|);
      }
    }
  }

  /** Stricter thresholds at every rank never give a longer divergent prefix. */
  lemma CutMonotone(ps: seq<real>, m1: Method, m2: Method, alpha: real)
    requires forall o :: 1 <= o <= |ps| ==> Threshold(m1, alpha, |ps|, o) <= Threshold(m2, alpha, |ps|, o)
    ensures CutLength(ps, m1, alpha) <= CutLength(ps, m2, alpha)
  {
    var n1 := CutLength(ps, m1, alpha);
    var n2 := CutLength(ps, m2, alpha);
    assert n2 < n1 ==> Passes(ps, m1, alpha, n2);
  }

  /** Bonferroni declares no more rows divergent than Holm. */
  lemma BonferroniWithinHolm(ps: seq<real>, alpha: real)
    requires alpha >= 0.0
    ensures CutLength(ps, Bonferroni, alpha) <= CutLength(ps, Holm, alpha)
  {
    var k := |ps|;
    forall o | 1 <= o <= k
      ensures Threshold(Bonferroni, alpha, k, o) <= Threshold(Holm, alpha, k, o)
    {
      DivideByLarger(alpha, (k - o + 1) as real, k as real);
    }
    CutMonotone(ps, Bonferroni, Holm, alpha);
  }

  /** Holm declares no more rows divergent than the ascending Benjamini-Hochberg walk. */
  lemma HolmWithinBH(ps: seq<real>, alpha: real)
    requires alpha >= 0.0
    ensures CutLength(ps, Holm, alpha) <= CutLength(ps, BH, alpha)
  {
    var k := |ps|;
    forall o | 1 <= o <= k
      ensures Threshold(Holm, alpha, k, o) <= Threshold(BH, alpha, k, o)
    {
      HolmBelowBH(alpha, k, o);
    }
    CutMonotone(ps, Holm, BH, alpha);
  }

  /** alpha / (k - o + 1) <= (alpha / k) * o, because k <= o * (k - o + 1). */
  lemma HolmBelowBH(alpha: real, k: nat, o: nat)
    requires alpha >= 0.0 && 1 <= o <= k
    ensures alpha / (k - o + 1) as real <= (alpha / k as real) * o as real
  {
    var d := (k - o + 1) as real;
    RankBound(k, o);
    DivideBelow(k as real, o as real, d);
    SampleSize.QuotientPositive(k as real, o as real);
    DivideByLarger(alpha, k as real / o as real, d);
    DivideByQuotient(alpha, k as real, o as real);
  }

  lemma RankBound(k: nat, o: nat)
    requires 1 <= o <= k
    ensures k as real <= o as real * (k - o + 1) as real
  {
    ProductNonnegative((o - 1) as real, (k - o) as real);
    assert o as real * (k - o + 1) as real - k as real == (o - 1) as real * (k - o) as real;
  }

  /** x / y <= z when y > 0 and x <= y * z. */
  lemma DivideBelow(x: real, y: real, z: real)
    requires y > 0.0 && x <= y * z
    ensures x / y <= z
  {
    SampleSize.QuotientPositive(1.0, y);
    ScaleMonotone(1.0 / y, x, y * z);
    assert (1.0 / y) * (y * z) == z;
    assert (1.0 / y) * x == x / y;
  }

  lemma DivideByQuotient(a: real, b: real, c: real)
    requires b > 0.0 && c > 0.0
    ensures a / (b / c) == (a / b) * c
  {
  }

  /** With the sentinel p-value -1 of the JS detector every row is divergent. */
  lemma SentinelMakesAllDivergent(ps: seq<real>, m: Method, alpha: real)
    requires alpha >= 0.0 && forall j :: 0 <= j < |ps| ==> ps[j] == -1.0
    ensures CutLength(ps, m, alpha) == |ps|
  {
    var n := CutLength(ps, m, alpha);
    if n < |ps| {
      ThresholdNonnegative(m, alpha, |ps|, n + 1);
    }
  }

  /**
    Five p-values at alpha = 0.05: Bonferroni and Holm stop at rank 3
    (0.02 against 0.01 and 0.05/3), the ascending Benjamini-Hochberg walk at
    rank 4 (0.5 against 0.04).
  */
  lemma ExampleCuts()
    ensures CutLength([0.001, 0.01, 0.02, 0.5, 0.9], Bonferroni, 0.05) == 2
    ensures CutLength([0.001, 0.01, 0.02, 0.5, 0.9], Holm, 0.05) == 2
    ensures CutLength([0.001, 0.01, 0.02, 0.5, 0.9], BH, 0.05) == 3
  {
    var ps := [0.001, 0.01, 0.02, 0.5, 0.9];
    CutLengthUnique(ps, Bonferroni, 0.05, 2);
    CutLengthUnique(ps, Holm, 0.05, 2);
    CutLengthUnique(ps, BH, 0.05, 3);
  }

  /**
    The "bh" walk is ascending, like the other two: it stops at the first
    rank over its threshold even when a later rank is within its own. With
    p-values 0.03 and 0.04 at alpha = 0.05 nothing is divergent, although the
    step-up Benjamini-Hochberg procedure, which scans from the largest
    p-value, would reject both (0.04 <= 2 * 0.05 / 2).
  */
  lemma AscendingBHStopsAtFirstViolation()
    ensures CutLength([0.03, 0.04], BH, 0.05) == 0
    ensures [0.03, 0.04][1] <= Threshold(BH, 0.05, 2, 2)
  {
    CutLengthUnique([0.03, 0.04], BH, 0.05, 0);
  }

  // ---------------------------------------------------------------------
  // Properties of the scan
  // ---------------------------------------------------------------------

  /** An empty table yields nothing to append, whatever the method name. */
  lemma EmptyTableAppendsNothing(table: Table, testName: string, alpha: real, name: string, existing: set<string>)
    requires Rectangular(table) && table.rows == [] && PValueColumn(testName) in table.columns
    ensures Scan(table, testName, alpha, name, existing) == Ok([])
  {
    var sorted := SortedScores(table, PValueColumn(testName));
    assert |sorted| == 0;
  }

  /** An unknown method name fails on any non-empty table with the column. */
  lemma UnknownMethodFails(table: Table, testName: string, alpha: real, name: string, existing: set<string>)
    requires Rectangular(table) && table.rows != [] && PValueColumn(testName) in table.columns
    requires ParseMethod(name).None?
    ensures Scan(table, testName, alpha, name, existing) == Err(UnassignedThreshold)
  {
    var sorted := SortedScores(table, PValueColumn(testName));
    assert |sorted| == |table.rows| > 0;
  }

  /**
    The rows appended are exactly the divergent rows whose id is new: each
    such row appears as often as it is divergent, every other row not at all.
  */
  lemma ScanAppendsNewDivergent(table: Table, testName: string, alpha: real, name: string, existing: set<string>)
    requires Rectangular(table) && PValueColumn(testName) in table.columns
    requires Scan(table, testName, alpha, name, existing).Ok?
    ensures var d := Divergent(table, PValueColumn(testName), name, alpha);
      && d.Ok?
      && forall row :: multiset(Scan(table, testName, alpha, name, existing).value)[row] ==
           if row.programId in existing then 0 else multiset(RowsOf(d.value))[row]
  {
  }

  /** A second scan over the same data, after the first one's rows are recorded, appends nothing. */
  lemma ScanIdempotent(table: Table, testName: string, alpha: real, name: string, existing: set<string>)
    requires Rectangular(table)
    requires Scan(table, testName, alpha, name, existing).Ok?
    ensures Scan(table, testName, alpha, name, existing + IdsOf(Scan(table, testName, alpha, name, existing).value)) == Ok([])
  {
    var added := Scan(table, testName, alpha, name, existing).value;
    var column := PValueColumn(testName);
    var rows := RowsOf(Divergent(table, column, name, alpha).value);
    var again := NewDivergent(rows, existing + IdsOf(added));
  }
}

=== FILE: detectors.dfy ===
/**
  The detectors of lib/detectors.py. Each reduces two outcome histograms to a
  (statistic, p-value) pair. The statistics themselves come from scipy and
  are parameters of the model; what is modelled is which inputs reach them,
  what is reported, and which fields of the detector object change.
*/
module Detectors {
  import opened Wrappers
  import opened Samples

  /** The detector classes; the abstract base class has no `check` of its own. */
  datatype Kind = KS | JS | ChiSquare

  /** The class a configuration's `detector_object` string names, if any. */
  function ClassNamed(detectorObject: string): (r: Option<Kind>)
    ensures r == Some(KS) <==> detectorObject == "KS_Detector"
    ensures r == Some(JS) <==> detectorObject == "JS_Detector"
    ensures r == Some(ChiSquare) <==> detectorObject == "ChiSquare_Detector"
  {
    if detectorObject == "KS_Detector" then Some(KS)
    else if detectorObject == "JS_Detector" then Some(JS)
    else if detectorObject == "ChiSquare_Detector" then Some(ChiSquare)
    else None
  }

  /** The `name` attribute each constructor sets. */
  function DisplayName(kind: Kind): string {
    match kind
    case KS => "Kolmogorov–Smirnov Test"
    case JS => "Jensen–Shannon Distance"
    case ChiSquare => "Chi-Square Test"
  }

  /**
    The foreign statistics: ks_2samp on two non-empty raw sample lists gives
    (statistic, p-value); jensenshannon on the two histograms, aligned on the
    union of their keys, gives a distance or raises (None).
  */
  datatype Statistics = Statistics(
    ks2samp: (seq<Sample>, seq<Sample>) -> (real, real),
    jensenShannon: (Summary, Summary) -> Option<real>)

  /** What `check(result_A, result_B)` returns for each detector class. */
  function CheckResult(kind: Kind, a: Summary, b: Summary, stats: Statistics): (r: Result<(real, real), Failure>)
    ensures kind == KS ==> (r.Err? <==> Total(a) == 0 || Total(b) == 0)
    ensures kind == KS && r.Ok? ==> r.value == stats.ks2samp(BinarySamples(a), BinarySamples(b))
    ensures kind == JS ==> (r.Ok? <==> stats.jensenShannon(a, b).Some?)
    ensures kind == JS && r.Ok? ==> r.value == (stats.jensenShannon(a, b).value, -1.0)
    ensures kind == ChiSquare ==> r == Ok((0.0, 0.0))
    ensures r.Err? ==> r.error == (if kind == KS then EmptySample else StatisticFailed(DisplayName(kind)))
  {
    match kind
    case KS =>
      var samplesA := BinarySamples(a);
      var samplesB := BinarySamples(b);
      if |samplesA| == 0 || |samplesB| == 0 then Err(EmptySample)
      else Ok(stats.ks2samp(samplesA, samplesB))
    case JS =>
      (match stats.jensenShannon(a, b)
       case None => Err(StatisticFailed(DisplayName(JS)))
       case Some(d) => Ok((d, -1.0)))
    case ChiSquare => Ok((0.0, 0.0))
  }

  /**
    Every reported p-value is either the sentinel -1 or, when ks_2samp keeps
    its p-values in [0, 1], a probability.
  */
  lemma PValueInRangeOrSentinel(kind: Kind, a: Summary, b: Summary, stats: Statistics)
    requires forall x, y :: 0.0 <= stats.ks2samp(x, y).1 <= 1.0
    requires CheckResult(kind, a, b, stats).Ok?
    ensures var p := CheckResult(kind, a, b, stats).value.1; p == -1.0 || 0.0 <= p <= 1.0
  {
  }

  /** The Chi-Square stub answers the same for any two histograms. */
  lemma ChiSquareIgnoresInputs(a1: Summary, b1: Summary, a2: Summary, b2: Summary, s1: Statistics, s2: Statistics)
    ensures CheckResult(ChiSquare, a1, b1, s1) == CheckResult(ChiSquare, a2, b2, s2)
  {
  }

  /**
    A detector object. Python creates the attributes other than `name` on
    first use; here an attribute that does not exist yet and one set to
    None are both None.
  */
  class Detector {
    const kind: Kind
    const name: string
    var statistics: Option<real>
    var pValue: Option<real>
    var resultA: Option<Summary>
    var resultB: Option<Summary>
    var samplesA: Option<seq<Sample>>
    var samplesB: Option<seq<Sample>>

    constructor (kind: Kind)
      ensures this.kind == kind && name == DisplayName(kind)
      ensures statistics == None && pValue == None
      ensures resultA == None && resultB == None && samplesA == None && samplesB == None
    {
      this.kind := kind;
      name := DisplayName(kind);
      statistics, pValue := None, None;
      resultA, resultB := None, None;
      samplesA, samplesB := None, None;
    }

    /** load_results: forget the last outcome, keep both inputs and their raw samples. */
    method LoadResults(a: Summary, b: Summary)
      modifies this
      ensures statistics == None && pValue == None
      ensures resultA == Some(a) && resultB == Some(b)
      ensures samplesA == Some(BinarySamples(a)) && samplesB == Some(BinarySamples(b))
    {
      statistics := None;
      pValue := None;
      resultA := Some(a);
      resultB := Some(b);
      var ra := ObtainRawSamples(a, Binary);
      var rb := ObtainRawSamples(b, Binary);
      assert ra == Ok(BinarySamples(a)) && rb == Ok(BinarySamples(b));
      samplesA := Some(ra.value);
      samplesB := Some(rb.value);
    }

    /**
      check: the KS detector loads both results and records what ks_2samp
      returns; the JS detector records the distance and the sentinel -1 and
      leaves the loaded results alone; the Chi-Square stub changes nothing.
    */
    method Check(a: Summary, b: Summary, stats: Statistics) returns (r: Result<(real, real), Failure>)
      modifies this
      ensures r == CheckResult(kind, a, b, stats)
      ensures kind == KS ==>
        && resultA == Some(a) && resultB == Some(b)
        && samplesA == Some(BinarySamples(a)) && samplesB == Some(BinarySamples(b))
        && statistics == (if r.Ok? then Some(r.value.0) else None)
        && pValue == (if r.Ok? then Some(r.value.1) else None)
      ensures kind == JS ==>
        && resultA == old(resultA) && resultB == old(resultB)
        && samplesA == old(samplesA) && samplesB == old(samplesB)
        && statistics == (if r.Ok? then Some(r.value.0) else old(statistics))
        && pValue == (if r.Ok? then Some(-1.0) else old(pValue))
      ensures kind == ChiSquare ==>
        && resultA == old(resultA) && resultB == old(resultB)
        && samplesA == old(samplesA) && samplesB == old(samplesB)
        && statistics == old(statistics) && pValue == old(pValue)
    {
      match kind
      case KS =>
        LoadResults(a, b);
        if |samplesA.value| == 0 || |samplesB.value| == 0 {
          return Err(EmptySample);
        }
        var (stat, p) := stats.ks2samp(samplesA.value, samplesB.value);
        statistics, pValue := Some(stat), Some(p);
        r := Ok((stat, p));
      case JS =>
        var d := stats.jensenShannon(a, b);
        if d.None? {
          return Err(StatisticFailed(DisplayName(JS)));
        }
        statistics := Some(d.value);
        pValue := Some(-1.0);
        r := Ok((d.value, -1.0));
      case ChiSquare =>
        r := Ok((0.0, 0.0));
    }
  }
}

=== FILE: reorder.dfy ===
/**
  reorder (lib/coverage/reorder_files.py): renumber the generated program
  pairs in the order they were started. Each program contributes its source
  file and then its followup file, named 1.fuzz, 2.fuzz, ... in that order;
  the result is the list of mapping records written to the mapping CSV.
*/
module Reorder {
  import opened Sorting
  import Samples

  /** A row of QFLDATA as far as the renumbering reads it. */
  datatype Program = Program(programId: string, absStartTime: real)

  /** One line of program_order_mapping.csv. */
  datatype MappingRecord = MappingRecord(oldProgramId: string, newProgramId: string, oldRelPath: string, newRelPath: string)

  // ---------------------------------------------------------------------
  // Paths
  // ---------------------------------------------------------------------

  /**
    os.path.join with two POSIX components: an absolute second component
    replaces the first; otherwise a separator is put between them unless
    the first is empty or already ends with one.
  */
  function Join(a: string, b: string): string {
    if |b| > 0 && b[0] == '/' then b
    else if a == [] || a[|a| - 1] == '/' then a + b
    else a + "/" + b
  }

  /**
    The joined path always ends with the second component; unless that is
    absolute it starts with the first, and there is exactly one separator
    between them when the first does not already end with one.
  */
  lemma JoinShape(a: string, b: string)
    ensures var r := Join(a, b);
      && |r| >= |b| && r[|r| - |b|..] == b
      && (|b| > 0 && b[0] == '/' ==> r == b)
      && (!(|b| > 0 && b[0] == '/') ==> |r| >= |a| && r[..|a|] == a)
      && (!(|b| > 0 && b[0] == '/') && a != [] && a[|a| - 1] != '/' ==> |r| == |a| + 1 + |b| && r[|a|] == '/')
  {
    var r := Join(a, b);
    if !(|b| > 0 && b[0] == '/') {
      if a == [] || a[|a| - 1] == '/' {
        assert r == a + b;
      } else {
        assert r == a + "/" + b;
      }
    }
  }

  function ProgramsDir(expFolder: string): string { Join(expFolder, "programs") }
  function OutputDir(expFolder: string): string { Join(expFolder, "programs_sorted") }
  function SourceDir(expFolder: string): string { Join(ProgramsDir(expFolder), "source") }
  function FollowupDir(expFolder: string): string { Join(ProgramsDir(expFolder), "followup") }

  // ---------------------------------------------------------------------
  // Decimal numerals
  // ---------------------------------------------------------------------

  function DigitChar(d: nat): char
    requires d < 10
  {
    ('0' as int + d) as char
  }

  /** The value int(c) gives a digit character; 0 for any other character. */
  function DigitOf(c: char): nat {
    match Samples.DigitValue(c)
    case Some(d) => d
    case None => 0
  }

  /** str(n): the decimal numeral of n, without leading zeros. */
  function NatToString(n: nat): (s: string)
    ensures |s| >= 1
  {
    if n < 10 then [DigitChar(n)] else NatToString(n / 10) + [DigitChar(n % 10)]
  }

  /** The value of a string of decimal digits. */
  function DecimalValue(s: string): nat {
    if s == [] then 0 else 10 * DecimalValue(s[..|s| - 1]) + DigitOf(s[|s| - 1])
  }

  lemma DigitRoundTrip(d: nat)
    requires d < 10
    ensures DigitOf(DigitChar(d)) == d
  {
  }

  /** Reading a numeral back gives the number it was made from. */
  lemma {:induction false} DecimalRoundTrip(n: nat)
    ensures DecimalValue(NatToString(n)) == n
  {
    var s := NatToString(n);
    if n < 10 {
      assert s[..0] == [];
      DigitRoundTrip(n);
    } else {
      DecimalRoundTrip(n / 10);
      assert s == NatToString(n / 10) + [DigitChar(n % 10)];
      assert s[..|s| - 1] == NatToString(n / 10);
      DigitRoundTrip(n % 10);
      assert DecimalValue(s) == 10 * (n / 10) + n % 10;
    }
  }

  /** Distinct numbers have distinct numerals. */
  lemma NatToStringInjective(a: nat, b: nat)
    requires NatToString(a) == NatToString(b)
    ensures a == b
  {
    DecimalRoundTrip(a);
    DecimalRoundTrip(b);
  }

  /** The new name of the i-th file. */
  function FuzzName(i: nat): string {
    NatToString(i) + ".fuzz"
  }

  /** Distinct counters give distinct file names. */
  lemma FuzzNameInjective(a: nat, b: nat)
    requires FuzzName(a) == FuzzName(b)
    ensures a == b
  {
    var sa, sb := NatToString(a), NatToString(b);
    assert |sa| == |sb|;
    assert sa == FuzzName(a)[..|sa|];
    assert sb == FuzzName(b)[..|sb|];
    NatToStringInjective(a, b);
  }

  lemma FuzzNameExamples()
    ensures FuzzName(1) == "1.fuzz" && FuzzName(12) == "12.fuzz"
  {
    assert NatToString(12) == NatToString(1) + [DigitChar(2)];
  }

  // ---------------------------------------------------------------------
  // The renumbering
  // ---------------------------------------------------------------------

  function StartTime(p: Program): real {
    p.absStartTime
  }

  /** sort_values(by=['abs_start_time']): the order in which programs are renumbered. */
  function ProcessingOrder(programs: seq<Program>): (sorted: seq<Program>)
    ensures SortedBy(sorted, StartTime)
    ensures multiset(sorted) == multiset(programs)
    ensures |sorted| == |programs|
  {
    SortBy(programs, StartTime)
  }

  /** The three directories the renumbering reads from and writes to. */
  datatype Layout = Layout(source: string, followup: string, output: string)

  function LayoutOf(expFolder: string): Layout {
    Layout(SourceDir(expFolder), FollowupDir(expFolder), OutputDir(expFolder))
  }

  /** The directory of version 0 (source) or 1 (followup). */
  function VersionDir(layout: Layout, version: nat): string {
    if version == 0 then layout.source else layout.followup
  }

  /** The record for one copied file, given its program, version and counter value. */
  function RecordFor(layout: Layout, programId: string, version: nat, counter: nat): MappingRecord {
    MappingRecord(programId, FuzzName(counter), Join(VersionDir(layout, version), programId + ".py"),
                  Join(layout.output, FuzzName(counter)))
  }

  /** The program ids in processing order. */
  function SortedIds(sorted: seq<Program>): (ids: seq<string>)
    ensures |ids| == |sorted| && forall j :: 0 <= j < |sorted| ==> ids[j] == sorted[j].programId
  {
    seq(|sorted|, j requires 0 <= j < |sorted| => sorted[j].programId)
  }

  /**
    Record j of the mapping: the file of program j / 2 in version j % 2
    (source first, then followup), renamed with counter value j + 1.
  */
  function RecordAt(layout: Layout, ids: seq<string>, j: nat): MappingRecord
    requires j < 2 * |ids|
  {
    RecordFor(layout, ids[j / 2], j % 2, j + 1)
  }

  /** The mapping records for the programs `ids` in order. */
  function Mapping(layout: Layout, ids: seq<string>): (records: seq<MappingRecord>)
    ensures |records| == 2 * |ids|
  {
    seq(2 * |ids|, j requires 0 <= j < 2 * |ids| => RecordAt(layout, ids, j))
  }

  /**
    reorder without the copies and the CSV: the mapping records, two per
    program in start-time order, numbered by a counter that starts at 1.
  */
  method Reorder(expFolder: string, programs: seq<Program>) returns (records: seq<MappingRecord>)
    ensures records == Mapping(LayoutOf(expFolder), SortedIds(ProcessingOrder(programs)))
  {
    var dirInput := Join(expFolder, "programs");
    var dirOutput := Join(expFolder, "programs_sorted");
    var dirInputSource := Join(dirInput, "source");
    var dirInputFollowup := Join(dirInput, "followup");
    ghost var layout := Layout(dirInputSource, dirInputFollowup, dirOutput);
    var sorted := ProcessingOrder(programs);
    var sortedProgramIds := SortedIds(sorted);
    records := [];
    var i := 1;
    for n := 0 to |sortedProgramIds|
      invariant i == 2 * n + 1 && |records| == 2 * n
      invariant forall j :: 0 <= j < |records| ==> records[j] == RecordAt(layout, sortedProgramIds, j)
    {
      var programId := sortedProgramIds[n];
      var versionDirs := [dirInputSource, dirInputFollowup];
      for v := 0 to 2
        invariant i == 2 * n + v + 1 && |records| == 2 * n + v
        invariant forall j :: 0 <= j < |records| ==> records[j] == RecordAt(layout, sortedProgramIds, j)
      {
        var oldName := programId + ".py";
        var newName := NatToString(i) + ".fuzz";
        var oldRelPath := Join(versionDirs[v], oldName);
        var newRelPath := Join(dirOutput, newName);
        var mappingRecord := MappingRecord(programId, newName, oldRelPath, newRelPath);
        assert (2 * n + v) / 2 == n && (2 * n + v) % 2 == v;
        assert versionDirs[v] == VersionDir(layout, v);
        assert mappingRecord == RecordAt(layout, sortedProgramIds, 2 * n + v);
        MappingExtends(layout, sortedProgramIds, records, mappingRecord);
        i := i + 1;
        records := records + [mappingRecord];
      }
    }
    MappingPrefixes(layout, sortedProgramIds, records);
    assert layout == LayoutOf(expFolder);
  }

  /** Appending the next record keeps a list of records a prefix of the mapping. */
  lemma MappingExtends(layout: Layout, ids: seq<string>, records: seq<MappingRecord>, next: MappingRecord)
    requires |records| < 2 * |ids| && next == RecordAt(layout, ids, |records|)
    requires forall j :: 0 <= j < |records| ==> records[j] == RecordAt(layout, ids, j)
    ensures forall j :: 0 <= j < |records| + 1 ==> (records + [next])[j] == RecordAt(layout, ids, j)
  {
  }

  /** A list of records that agrees with the mapping everywhere and is as long as the mapping. */
  lemma MappingPrefixes(layout: Layout, ids: seq<string>, records: seq<MappingRecord>)
    requires |records| == 2 * |ids|
    requires forall j :: 0 <= j < |records| ==> records[j] == RecordAt(layout, ids, j)
    ensures records == Mapping(layout, ids)
  {
  }

  /** What the mapping says, pair by pair, about programs, paths and names. */
  lemma MappingInPairs(layout: Layout, ids: seq<string>)
    ensures var records := Mapping(layout, ids);
      && (forall j :: 0 <= j < |ids| ==>
            && records[2 * j].oldProgramId == ids[j]
            && records[2 * j + 1].oldProgramId == ids[j]
            && records[2 * j].oldRelPath == Join(layout.source, ids[j] + ".py")
            && records[2 * j + 1].oldRelPath == Join(layout.followup, ids[j] + ".py"))
      && (forall j :: 0 <= j < |records| ==>
            records[j].newProgramId == FuzzName(j + 1) && records[j].newRelPath == Join(layout.output, FuzzName(j + 1)))
      && (forall j1, j2 :: 0 <= j1 < j2 < |records| ==> records[j1].newProgramId != records[j2].newProgramId)
  {
    var records := Mapping(layout, ids);
    forall j | 0 <= j < |ids|
      ensures records[2 * j].oldProgramId == ids[j]
      ensures records[2 * j + 1].oldProgramId == ids[j]
      ensures records[2 * j].oldRelPath == Join(layout.source, ids[j] + ".py")
      ensures records[2 * j + 1].oldRelPath == Join(layout.followup, ids[j] + ".py")
    {
      assert (2 * j) / 2 == j && (2 * j) % 2 == 0;
      assert (2 * j + 1) / 2 == j && (2 * j + 1) % 2 == 1;
    }
    NewNamesDistinct(records);
  }

  /** Every program read from the table is renamed twice, source then followup, under consecutive names. */
  lemma EveryProgramRenumbered(layout: Layout, programs: seq<Program>, p: Program)
    requires p in programs
    ensures var sorted := ProcessingOrder(programs);
      var records := Mapping(layout, SortedIds(sorted));
      exists j :: 0 <= j < |sorted| && sorted[j] == p
        && records[2 * j] == RecordFor(layout, p.programId, 0, 2 * j + 1)
        && records[2 * j + 1] == RecordFor(layout, p.programId, 1, 2 * j + 2)
  {
    var sorted := ProcessingOrder(programs);
    var ids := SortedIds(sorted);
    assert p in multiset(programs);
    assert p in multiset(sorted);
    var j :| 0 <= j < |sorted| && sorted[j] == p;
    MappingAt(layout, ids, j);
  }

  /** Records 2j and 2j + 1 are the source and the followup of program j. */
  lemma MappingAt(layout: Layout, ids: seq<string>, j: nat)
    requires j < |ids|
    ensures Mapping(layout, ids)[2 * j] == RecordFor(layout, ids[j], 0, 2 * j + 1)
    ensures Mapping(layout, ids)[2 * j + 1] == RecordFor(layout, ids[j], 1, 2 * j + 2)
  {
    assert (2 * j) / 2 == j && (2 * j) % 2 == 0;
    assert (2 * j + 1) / 2 == j && (2 * j + 1) % 2 == 1;
  }

  /** A file numbered earlier belongs to a program that started no later. */
  lemma EarlierNumberStartedNoLater(layout: Layout, programs: seq<Program>, j1: nat, j2: nat)
    requires j1 <= j2 < 2 * |programs|
    ensures var sorted := ProcessingOrder(programs);
      var records := Mapping(layout, SortedIds(sorted));
      && records[j1].oldProgramId == sorted[j1 / 2].programId
      && records[j2].oldProgramId == sorted[j2 / 2].programId
      && sorted[j1 / 2].absStartTime <= sorted[j2 / 2].absStartTime
  {
    var sorted := ProcessingOrder(programs);
    assert j1 / 2 <= j2 / 2;
    if j1 / 2 < j2 / 2 {
      assert StartTime(sorted[j1 / 2]) <= StartTime(sorted[j2 / 2]);
    }
  }

  /** Numbering the records 1, 2, ... gives every record its own new name. */
  lemma NewNamesDistinct(records: seq<MappingRecord>)
    requires forall j :: 0 <= j < |records| ==> records[j].newProgramId == FuzzName(j + 1)
    ensures forall j1, j2 :: 0 <= j1 < j2 < |records| ==> records[j1].newProgramId != records[j2].newProgramId
  {
    forall j1, j2 | 0 <= j1 < j2 < |records|
      ensures records[j1].newProgramId != records[j2].newProgramId
    {
      if records[j1].newProgramId == records[j2].newProgramId {
        FuzzNameInjective(j1 + 1, j2 + 1);
      }
    }
  }
}

=== FILE: runner.dfy ===
/**
  detect_divergence (lib/qfl.py): run every configured detector over one
  program's pair of histograms and collect the results under the
  configured names.
*/
module Runner {
  import opened Wrappers
  import opened Samples
  import opened Detectors

  /** One entry of the detector configuration list. */
  datatype DetectorConfig = DetectorConfig(name: string, detectorObject: string)

  /** The value stored under a detector's name. */
  datatype DetectorResult = DetectorResult(statistic: real, pValue: real, time: real)

  /** The two histograms of one executed program. */
  datatype ExecMetadata = ExecMetadata(resA: Summary, resB: Summary)

  /** Instantiate the class a configuration names and run its check; `time` is the measured duration. */
  function RunOne(meta: ExecMetadata, config: DetectorConfig, stats: Statistics, time: real): (r: Result<DetectorResult, Failure>)
    ensures ClassNamed(config.detectorObject).None? ==> r == Err(UnknownDetector(config.detectorObject))
    ensures ClassNamed(config.detectorObject).Some? ==>
      var out := CheckResult(ClassNamed(config.detectorObject).value, meta.resA, meta.resB, stats);
      && (r.Ok? <==> out.Ok?)
      && (r.Ok? ==> r.value == DetectorResult(out.value.0, out.value.1, time))
      && (r.Err? ==> r.error == out.error)
  {
    match ClassNamed(config.detectorObject)
    case None => Err(UnknownDetector(config.detectorObject))
    case Some(kind) =>
      var out :- CheckResult(kind, meta.resA, meta.resB, stats);
      Ok(DetectorResult(out.0, out.1, time))
  }

  /**
    The result map after the configurations in order; `elapsed(i)` is the
    wall-clock time of the i-th check. The first failure aborts the run.
  */
  function Detections(meta: ExecMetadata, configs: seq<DetectorConfig>, stats: Statistics, elapsed: nat -> real): Result<map<string, DetectorResult>, Failure>
  {
    if configs == [] then Ok(map[])
    else
      var n := |configs| - 1;
      var results :- Detections(meta, configs[..n], stats, elapsed);
      var one :- RunOne(meta, configs[n], stats, elapsed(n));
      Ok(results[configs[n].name := one])
  }

  /** detect_divergence: the loop that fills the result dictionary. */
  method DetectDivergence(meta: ExecMetadata, configs: seq<DetectorConfig>, stats: Statistics, elapsed: nat -> real)
    returns (r: Result<map<string, DetectorResult>, Failure>)
    ensures r == Detections(meta, configs, stats, elapsed)
  {
    var results: map<string, DetectorResult> := map[];
    var i := 0;
    while i < |configs|
      invariant 0 <= i <= |configs|
      invariant Detections(meta, configs[..i], stats, elapsed) == Ok(results)
    {
      assert configs[..i + 1][..i] == configs[..i];
      var config := configs[i];
      var kind := ClassNamed(config.detectorObject);
      if kind.None? {
        DetectionsErrorPersists(meta, configs, stats, elapsed, i + 1);
        return Err(UnknownDetector(config.detectorObject));
      }
      var detector := new Detector(kind.value);
      var out := detector.Check(meta.resA, meta.resB, stats);
      if out.Err? {
        DetectionsErrorPersists(meta, configs, stats, elapsed, i + 1);
        return Err(out.error);
      }
      results := results[config.name := DetectorResult(out.value.0, out.value.1, elapsed(i))];
      i := i + 1;
    }
    assert configs[..|configs|] == configs;
    r := Ok(results);
  }

  /** Once a prefix of the configuration fails, the whole run fails the same way. */
  lemma {:induction false} DetectionsErrorPersists(meta: ExecMetadata, configs: seq<DetectorConfig>, stats: Statistics, elapsed: nat -> real, i: nat)
    requires i <= |configs| && Detections(meta, configs[..i], stats, elapsed).Err?
    ensures Detections(meta, configs, stats, elapsed) == Detections(meta, configs[..i], stats, elapsed)
    decreases |configs| - i
  {
    if i < |configs| {
      var n := |configs| - 1;
      assert configs[..n][..i] == configs[..i];
      DetectionsErrorPersists(meta, configs[..n], stats, elapsed, i);
      FailedPrefixAborts(meta, configs, stats, elapsed);
    } else {
      assert configs[..i] == configs;
    }
  }

  /** A run whose configurations before the last already failed fails the same way. */
  lemma FailedPrefixAborts(meta: ExecMetadata, configs: seq<DetectorConfig>, stats: Statistics, elapsed: nat -> real)
    requires configs != [] && Detections(meta, configs[..|configs| - 1], stats, elapsed).Err?
    ensures Detections(meta, configs, stats, elapsed) == Detections(meta, configs[..|configs| - 1], stats, elapsed)
  {
  }

  /** A run fails exactly when one of the configured detectors fails. */
  lemma {:induction false} DetectionsFailIff(meta: ExecMetadata, configs: seq<DetectorConfig>, stats: Statistics, elapsed: nat -> real)
    ensures Detections(meta, configs, stats, elapsed).Err? <==>
      exists i :: 0 <= i < |configs| && RunOne(meta, configs[i], stats, elapsed(i)).Err?
  {
    if configs != [] {
      var n := |configs| - 1;
      DetectionsFailIff(meta, configs[..n], stats, elapsed);
      DetectionsStep(meta, configs, stats, elapsed);
      FailingConfigSplit(meta, configs, stats, elapsed);
    }
  }

  /** One step of the run: it fails iff the earlier configurations or the last one fail. */
  lemma DetectionsStep(meta: ExecMetadata, configs: seq<DetectorConfig>, stats: Statistics, elapsed: nat -> real)
    requires configs != []
    ensures var n := |configs| - 1;
      Detections(meta, configs, stats, elapsed).Err? <==>
        Detections(meta, configs[..n], stats, elapsed).Err? || RunOne(meta, configs[n], stats, elapsed(n)).Err?
  {
  }

  /** Some configuration fails iff one before the last or the last one does. */
  lemma FailingConfigSplit(meta: ExecMetadata, configs: seq<DetectorConfig>, stats: Statistics, elapsed: nat -> real)
    requires configs != []
    ensures var n := |configs| - 1;
      (exists i :: 0 <= i < |configs| && RunOne(meta, configs[i], stats, elapsed(i)).Err?) <==>
        (exists i :: 0 <= i < n && RunOne(meta, configs[..n][i], stats, elapsed(i)).Err?) || RunOne(meta, configs[n], stats, elapsed(n)).Err?
  {
    var n := |configs| - 1;
    if exists i :: 0 <= i < |configs| && RunOne(meta, configs[i], stats, elapsed(i)).Err? {
      var i :| 0 <= i < |configs| && RunOne(meta, configs[i], stats, elapsed(i)).Err?;
      if i < n {
        assert configs[..n][i] == configs[i];
      }
    }
    if exists i :: 0 <= i < n && RunOne(meta, configs[..n][i], stats, elapsed(i)).Err? {
      var i :| 0 <= i < n && RunOne(meta, configs[..n][i], stats, elapsed(i)).Err?;
      assert configs[..n][i] == configs[i];
    }
  }

  /** Every entry of a successful run is the result of a configuration that carries its name. */
  lemma {:induction false} EntryFromConfig(meta: ExecMetadata, configs: seq<DetectorConfig>, stats: Statistics, elapsed: nat -> real, name: string)
    requires Detections(meta, configs, stats, elapsed).Ok? && name in Detections(meta, configs, stats, elapsed).value
    ensures exists i ::
              && 0 <= i < |configs| && configs[i].name == name
              && RunOne(meta, configs[i], stats, elapsed(i)) == Ok(Detections(meta, configs, stats, elapsed).value[name])
  {
    var n := |configs| - 1;
    if configs[n].name != name {
      var prefix := configs[..n];
      EntryFromConfig(meta, prefix, stats, elapsed, name);
      var i :| && 0 <= i < n && prefix[i].name == name
               && RunOne(meta, prefix[i], stats, elapsed(i)) == Ok(Detections(meta, prefix, stats, elapsed).value[name]);
      assert prefix[i] == configs[i];
    }
  }

  /**
    A failed run reports the error of its first failing configuration: every
    configuration before it succeeded.
  */
  lemma {:induction false} FirstFailure(meta: ExecMetadata, configs: seq<DetectorConfig>, stats: Statistics, elapsed: nat -> real) returns (i: nat)
    requires Detections(meta, configs, stats, elapsed).Err?
    ensures i < |configs| && RunOne(meta, configs[i], stats, elapsed(i)).Err?
    ensures Detections(meta, configs, stats, elapsed).error == RunOne(meta, configs[i], stats, elapsed(i)).error
    ensures forall j :: 0 <= j < i ==> RunOne(meta, configs[j], stats, elapsed(j)).Ok?
  {
    var n := |configs| - 1;
    var prefix := configs[..n];
    if Detections(meta, prefix, stats, elapsed).Err? {
      FailedPrefixAborts(meta, configs, stats, elapsed);
      i := FirstFailure(meta, prefix, stats, elapsed);
      assert prefix[i] == configs[i];
      assert forall j :: 0 <= j < i ==> prefix[j] == configs[j];
    } else {
      DetectionsFailIff(meta, prefix, stats, elapsed);
      i := n;
      assert forall j :: 0 <= j < n ==> prefix[j] == configs[j];
    }
  }

  /** A successful run has exactly one entry per configured name. */
  lemma {:induction false} DetectionsKeys(meta: ExecMetadata, configs: seq<DetectorConfig>, stats: Statistics, elapsed: nat -> real)
    requires Detections(meta, configs, stats, elapsed).Ok?
    ensures Detections(meta, configs, stats, elapsed).value.Keys == set c | c in configs :: c.name
  {
    if configs != [] {
      var n := |configs| - 1;
      var prefix := configs[..n];
      DetectionsKeys(meta, prefix, stats, elapsed);
      assert configs == prefix + [configs[n]];
      assert (set c | c in configs :: c.name) == (set c | c in prefix :: c.name) + {configs[n].name};
    }
  }

  /**
    In a successful run each name holds the result of the last configuration
    that carries it: a later duplicate overwrites an earlier one.
  */
  lemma {:induction false} LastConfigWins(meta: ExecMetadata, configs: seq<DetectorConfig>, stats: Statistics, elapsed: nat -> real, i: nat)
    requires Detections(meta, configs, stats, elapsed).Ok?
    requires i < |configs| && forall j :: i < j < |configs| ==> configs[j].name != configs[i].name
    ensures RunOne(meta, configs[i], stats, elapsed(i)).Ok?
    ensures configs[i].name in Detections(meta, configs, stats, elapsed).value
    ensures Detections(meta, configs, stats, elapsed).value[configs[i].name] == RunOne(meta, configs[i], stats, elapsed(i)).value
  {
    var n := |configs| - 1;
    var prefix := configs[..n];
    if i < n {
      assert prefix[i] == configs[i];
      assert forall j :: i < j < |prefix| ==> prefix[j] == configs[j];
      LastConfigWins(meta, prefix, stats, elapsed, i);
    }
  }
}

=== FILE: samples.dfy ===
/**
  Sample extraction (lib/detectors.py): turning an outcome histogram into a
  flat list of samples, and that list into a matrix of digits.
*/
module Samples {
  import opened Wrappers

  /** One key of an outcome histogram with its occurrence count. */
  datatype Entry = Entry(key: string, count: nat)

  /** An outcome histogram, in the dictionary's iteration (insertion) order. */
  type Summary = seq<Entry>

  /** A dictionary never holds a key twice. */
  ghost predicate DistinctKeys(s: Summary) {
    forall i, j :: 0 <= i < j < |s| ==> s[i].key != s[j].key
  }

  /** The sum of all counts. */
  function Total(s: Summary): nat {
    if s == [] then 0 else Total(s[..|s| - 1]) + s[|s| - 1].count
  }

  /** The count the histogram holds for key; 0 when the key is absent. */
  function CountOf(s: Summary, key: string): (n: nat)
    ensures (forall i :: 0 <= i < |s| ==> s[i].key != key) ==> n == 0
  {
    if s == [] then 0
    else if s[|s| - 1].key == key then s[|s| - 1].count
    else CountOf(s[..|s| - 1], key)
  }

  /**
    What a sample looks like. Any `representation` other than 'natural'
    leaves the key as it is, so two cases cover the parameter.
  */
  datatype Representation = Binary | Natural

  /** A raw sample: the key itself, or its base-2 value. */
  datatype Sample = Label(bits: string) | Value(n: int)

  function Repeat<T>(x: T, n: nat): (r: seq<T>)
    ensures |r| == n
    ensures forall i :: 0 <= i < n ==> r[i] == x
  {
    seq(n, _ => x)
  }

  // ---------------------------------------------------------------------
  // int(key, 2)
  // ---------------------------------------------------------------------

  predicate IsBit(c: char) {
    c == '0' || c == '1'
  }

  predicate IsBitString(s: string) {
    forall i :: 0 <= i < |s| ==> IsBit(s[i])
  }

  /** The value of a string of binary digits, most significant digit first. */
  function BitsValue(d: string): nat
    requires IsBitString(d)
  {
    if d == [] then 0
    else 2 * BitsValue(d[..|d| - 1]) + (if d[|d| - 1] == '1' then 1 else 0)
  }

  /** Binary digits, optionally behind a 0b or 0B prefix. */
  function ParseUnsigned(s: string): Option<nat> {
    var digits := if |s| >= 2 && s[0] == '0' && (s[1] == 'b' || s[1] == 'B') then s[2..] else s;
    if digits != [] && IsBitString(digits) then Some(BitsValue(digits)) else None
  }

  /** Python's int(s, 2): an optional sign, an optional 0b prefix, then binary digits. */
  function ParseBase2(s: string): (r: Option<int>)
    ensures s != [] && IsBitString(s) ==> r == Some(BitsValue(s))
    ensures r.Some? ==> s != []
  {
    if |s| >= 1 && s[0] == '-' then
      match ParseUnsigned(s[1..])
      case Some(n) => Some(-(n as int))
      case None => None
    else if |s| >= 1 && s[0] == '+' then
      match ParseUnsigned(s[1..])
      case Some(n) => Some(n)
      case None => None
    else
      match ParseUnsigned(s)
      case Some(n) => Some(n)
      case None => None
  }

  /** The w-digit binary numeral of n (the form a measured outcome takes). */
  function FixedWidthBits(n: nat, w: nat): (r: string)
    ensures |r| == w && IsBitString(r)
  {
    if w == 0 then [] else FixedWidthBits(n / 2, w - 1) + [if n % 2 == 1 then '1' else '0']
  }

  function Pow2(w: nat): (p: nat)
    ensures p >= 1
  {
    if w == 0 then 1 else 2 * Pow2(w - 1)
  }

  /** Reading a w-digit numeral back in base 2 returns the number it was made from. */
  lemma {:induction false} BitsValueOfFixedWidth(n: nat, w: nat)
    requires n < Pow2(w)
    ensures BitsValue(FixedWidthBits(n, w)) == n
  {
    if w > 0 {
      BitsValueOfFixedWidth(n / 2, w - 1);
      var d := FixedWidthBits(n, w);
      assert d[..|d| - 1] == FixedWidthBits(n / 2, w - 1);
    }
  }

  /** Round trip of the 'natural' representation on measured outcomes of width w >= 1. */
  lemma ParseFixedWidth(n: nat, w: nat)
    requires 1 <= w && n < Pow2(w)
    ensures ParseBase2(FixedWidthBits(n, w)) == Some(n)
  {
    BitsValueOfFixedWidth(n, w);
  }

  // ---------------------------------------------------------------------
  // obtain_raw_samples
  // ---------------------------------------------------------------------

  /** One key in the requested representation; int(key, 2) may raise. */
  function Represent(key: string, rep: Representation): (r: Result<Sample, Failure>)
    ensures rep == Binary ==> r == Ok(Label(key))
    ensures rep == Natural ==> (r.Ok? <==> ParseBase2(key).Some?)
    ensures rep == Natural && r.Ok? ==> r.value == Value(ParseBase2(key).value)
    ensures r.Err? ==> r.error == MalformedKey(key)
  {
    match rep
    case Binary => Ok(Label(key))
    case Natural =>
      match ParseBase2(key)
      case Some(n) => Ok(Value(n))
      case None => Err(MalformedKey(key))
  }

  /**
    The raw samples of a histogram: for each key in iteration order, `count`
    copies of its representation. The first key whose conversion raises
    stops the extraction.
  */
  function RawSamples(s: Summary, rep: Representation): (r: Result<seq<Sample>, Failure>)
    ensures r.Ok? ==> |r.value| == Total(s)
  {
    if s == [] then Ok([])
    else
      var prefix :- RawSamples(s[..|s| - 1], rep);
      var x :- Represent(s[|s| - 1].key, rep);
      Ok(prefix + Repeat(x, s[|s| - 1].count))
  }

  /** obtain_raw_samples: the loop that extends the sample list key by key. */
  method ObtainRawSamples(s: Summary, rep: Representation) returns (r: Result<seq<Sample>, Failure>)
    ensures r == RawSamples(s, rep)
  {
    var raw: seq<Sample> := [];
    var i := 0;
    while i < |s|
      invariant 0 <= i <= |s|
      invariant RawSamples(s[..i], rep) == Ok(raw)
    {
      assert s[..i + 1][..i] == s[..i];
      var value := Represent(s[i].key, rep);
      if value.Err? {
        RawSamplesErrorPersists(s, i + 1, rep);
        return Err(value.error);
      }
      raw := raw + Repeat(value.value, s[i].count);
      i := i + 1;
    }
    assert s[..|s|] == s;
    r := Ok(raw);
  }

  /** Once a prefix of the histogram fails, the whole histogram fails the same way. */
  lemma {:induction false} RawSamplesErrorPersists(s: Summary, i: nat, rep: Representation)
    requires i <= |s| && RawSamples(s[..i], rep).Err?
    ensures RawSamples(s, rep) == RawSamples(s[..i], rep)
    decreases |s| - i
  {
    if i < |s| {
      var n := |s| - 1;
      assert s[..n][..i] == s[..i];
      RawSamplesErrorPersists(s[..n], i, rep);
      assert s[..n] == s[..|s| - 1];
    } else {
      assert s[..i] == s;
    }
  }

  /** The binary representation never raises. */
  function BinarySamples(s: Summary): (r: seq<Sample>)
    ensures RawSamples(s, Binary) == Ok(r)
    ensures forall j :: 0 <= j < |r| ==> r[j].Label?
  {
    BinaryNeverFails(s);
    RawSamples(s, Binary).value
  }

  lemma {:induction false} BinaryNeverFails(s: Summary)
    ensures RawSamples(s, Binary).Ok?
    ensures forall j :: 0 <= j < |RawSamples(s, Binary).value| ==> RawSamples(s, Binary).value[j].Label?
  {
    if s != [] {
      BinaryNeverFails(s[..|s| - 1]);
    }
  }

  /** Extraction fails exactly when some key, even one counted zero times, cannot be converted. */
  lemma RawSamplesFailIff(s: Summary, rep: Representation)
    ensures RawSamples(s, rep).Err? <==> exists i :: 0 <= i < |s| && Represent(s[i].key, rep).Err?
  {
    if RawSamples(s, rep).Err? {
      var i := FailingKey(s, rep);
    }
    if exists i :: 0 <= i < |s| && Represent(s[i].key, rep).Err? {
      var i :| 0 <= i < |s| && Represent(s[i].key, rep).Err?;
      UnconvertibleKeyFails(s, rep, i);
    }
  }

  /** A key that cannot be converted makes the whole extraction fail. */
  lemma UnconvertibleKeyFails(s: Summary, rep: Representation, i: nat)
    requires i < |s| && Represent(s[i].key, rep).Err?
    ensures RawSamples(s, rep).Err?
  {
    var upTo := s[..i + 1];
    assert upTo[..|upTo| - 1] == s[..i] && upTo[|upTo| - 1] == s[i];
    RawSamplesStep(upTo, rep);
    RawSamplesErrorPersists(s, i + 1, rep);
  }

  /** A failed extraction names a key whose conversion raises. */
  lemma {:induction false} FailingKey(s: Summary, rep: Representation) returns (i: nat)
    requires RawSamples(s, rep).Err?
    ensures i < |s| && Represent(s[i].key, rep).Err?
  {
    var n := |s| - 1;
    RawSamplesStep(s, rep);
    if Represent(s[n].key, rep).Err? {
      i := n;
    } else {
      var prefix := s[..n];
      i := FailingKey(prefix, rep);
      assert prefix[i] == s[i];
    }
  }

  /** One step of the extraction: the histogram without its last key, then that key. */
  lemma RawSamplesStep(s: Summary, rep: Representation)
    requires s != []
    ensures var prefix := RawSamples(s[..|s| - 1], rep);
      var last := Represent(s[|s| - 1].key, rep);
      && (RawSamples(s, rep).Ok? <==> prefix.Ok? && last.Ok?)
      && (RawSamples(s, rep).Ok? ==> RawSamples(s, rep).value == prefix.value + Repeat(last.value, s[|s| - 1].count))
  {
  }

  /**
    Sample number Total(s[..i]) + t is the representation of key i, for
    every t below its count: each key contributes one contiguous block, in
    iteration order.
  */
  lemma SampleAt(s: Summary, rep: Representation, i: nat, t: nat)
    requires RawSamples(s, rep).Ok?
    requires i < |s| && t < s[i].count
    ensures Total(s[..i]) + t < Total(s)
    ensures Represent(s[i].key, rep).Ok?
    ensures RawSamples(s, rep).value[Total(s[..i]) + t] == Represent(s[i].key, rep).value
  {
    var upTo := s[..i + 1];
    var rest := s[i + 1..];
    assert s == upTo + rest;
    RawSamplesAppend(upTo, rest, rep);
    assert upTo[..|upTo| - 1] == s[..i] && upTo[|upTo| - 1] == s[i];
    RawSamplesStep(upTo, rep);
    var head := RawSamples(s[..i], rep).value;
    var block := Repeat(Represent(s[i].key, rep).value, s[i].count);
    ConcatAt(head, block, Total(s[..i]) + t);
    ConcatAt(head + block, RawSamples(rest, rep).value, Total(s[..i]) + t);
  }

  /** Position k of a + b, read from the part that holds it. */
  lemma ConcatAt<T>(a: seq<T>, b: seq<T>, k: nat)
    requires k < |a| + |b|
    ensures (a + b)[k] == if k < |a| then a[k] else b[k - |a|]
  {
  }

  /** Extraction distributes over splitting the histogram in two. */
  lemma {:induction false} RawSamplesAppend(a: Summary, b: Summary, rep: Representation)
    ensures RawSamples(a + b, rep) ==
      match RawSamples(a, rep)
      case Err(e) => Err(e)
      case Ok(x) =>
        match RawSamples(b, rep)
        case Err(e) => Err(e)
        case Ok(y) => Ok(x + y)
  {
    if b == [] {
      assert a + b == a;
      if RawSamples(a, rep).Ok? {
        assert RawSamples(a, rep).value + [] == RawSamples(a, rep).value;
      }
    } else {
      var n := |b| - 1;
      assert (a + b)[..|a + b| - 1] == a + b[..n];
      assert b[..n] == b[..|b| - 1];
      RawSamplesAppend(a, b[..n], rep);
      if RawSamples(a, rep).Ok? && RawSamples(b[..n], rep).Ok? && Represent(b[n].key, rep).Ok? {
        var x := RawSamples(a, rep).value;
        var y := RawSamples(b[..n], rep).value;
        var z := Repeat(Represent(b[n].key, rep).value, b[n].count);
        assert x + y + z == x + (y + z);
      }
    }
  }

  /** A key counted zero times adds no samples (provided its conversion does not raise). */
  lemma ZeroCountContributesNothing(s: Summary, rep: Representation, i: nat)
    requires i < |s| && s[i].count == 0 && Represent(s[i].key, rep).Ok?
    ensures RawSamples(s, rep) == RawSamples(s[..i] + s[i + 1..], rep)
  {
    assert s == s[..i] + [s[i]] + s[i + 1..];
    var single: Summary := [s[i]];
    assert single[..0] == [];
    assert RawSamples(single, rep) == Ok([]);
    RawSamplesAppend(s[..i] + [s[i]], s[i + 1..], rep);
    RawSamplesAppend(s[..i], [s[i]], rep);
    RawSamplesAppend(s[..i], s[i + 1..], rep);
    if RawSamples(s[..i], rep).Ok? {
      assert RawSamples(s[..i], rep).value + [] == RawSamples(s[..i], rep).value;
    }
  }

  /** In 'natural' mode even a key counted zero times is converted, and may raise. */
  lemma MalformedKeyCountedZeroStillFails()
    ensures RawSamples([Entry("2", 0)], Natural) == Err(MalformedKey("2"))
  {
    assert ParseBase2("2") == None by {
      assert "2"[0] == '2' && !IsBit("2"[0]);
      assert !IsBitString("2");
    }
  }

  lemma {:induction false} MultisetOfRepeat<T>(x: T, n: nat, y: T)
    ensures multiset(Repeat(x, n))[y] == if y == x then n else 0
  {
    if n > 0 {
      assert Repeat(x, n) == Repeat(x, n - 1) + [x];
      MultisetOfRepeat(x, n - 1, y);
    }
  }

  /** With binary samples, every key occurs exactly as many times as it is counted. */
  lemma {:induction false} BinaryMultiplicity(s: Summary, key: string)
    requires DistinctKeys(s)
    ensures multiset(BinarySamples(s))[Label(key)] == CountOf(s, key)
  {
    if s != [] {
      var n := |s| - 1;
      assert DistinctKeys(s[..n]);
      BinaryMultiplicity(s[..n], key);
      var prefix := BinarySamples(s[..n]);
      assert BinarySamples(s) == prefix + Repeat(Label(s[n].key), s[n].count);
      MultisetOfRepeat(Label(s[n].key), s[n].count, Label(key));
      if s[n].key == key {
        assert forall i :: 0 <= i < n ==> s[..n][i].key != key;
      }
    }
  }

  /** The 'natural' samples are the binary samples, each read in base 2, position by position. */
  lemma {:induction false} NaturalFollowsBinary(s: Summary)
    requires RawSamples(s, Natural).Ok?
    ensures |RawSamples(s, Natural).value| == |BinarySamples(s)|
    ensures forall j :: 0 <= j < |BinarySamples(s)| ==>
      Represent(BinarySamples(s)[j].bits, Natural) == Ok(RawSamples(s, Natural).value[j])
  {
    if s != [] {
      var n := |s| - 1;
      NaturalFollowsBinary(s[..n]);
      var nat' := RawSamples(s, Natural).value;
      var bin := BinarySamples(s);
      var np := RawSamples(s[..n], Natural).value;
      var bp := BinarySamples(s[..n]);
      assert nat' == np + Repeat(Represent(s[n].key, Natural).value, s[n].count);
      assert bin == bp + Repeat(Label(s[n].key), s[n].count);
      forall j | 0 <= j < |bin|
        ensures Represent(bin[j].bits, Natural) == Ok(nat'[j])
      {
        if j < |bp| {
          assert bin[j] == bp[j] && nat'[j] == np[j];
        }
      }
    }
  }

  // ---------------------------------------------------------------------
  // obtain_multivariate_samples
  // ---------------------------------------------------------------------

  /** int(c) for one character: an ASCII decimal digit; anything else raises. */
  function DigitValue(c: char): (r: Option<nat>)
    ensures r.Some? <==> '0' <= c <= '9'
    ensures r.Some? ==> r.value < 10 && r.value + '0' as int == c as int
  {
    if '0' <= c <= '9' then Some(c as int - '0' as int) else None
  }

  /** [int(x) for x in sample]. */
  function DigitRow(b: string): (r: Result<seq<nat>, Failure>)
    ensures r.Ok? <==> forall t :: 0 <= t < |b| ==> DigitValue(b[t]).Some?
    ensures r.Ok? ==> |r.value| == |b| && forall t :: 0 <= t < |b| ==> DigitValue(b[t]) == Some(r.value[t])
    ensures r.Err? ==> r.error == NotADigit(b)
  {
    if b == [] then Ok([])
    else
      var n := |b| - 1;
      assert forall t :: 0 <= t < n ==> b[..n][t] == b[t];
      match DigitRow(b[..n])
      case Err(_) => Err(NotADigit(b))
      case Ok(p) =>
        match DigitValue(b[n])
        case None => Err(NotADigit(b))
        case Some(d) => Ok(p + [d])
  }

  /** The list comprehension over all samples, in order. */
  function DigitRows(samples: seq<string>): (r: Result<seq<seq<nat>>, Failure>)
    ensures r.Ok? <==> forall j :: 0 <= j < |samples| ==> DigitRow(samples[j]).Ok?
    ensures r.Ok? ==> |r.value| == |samples| && forall j :: 0 <= j < |samples| ==> DigitRow(samples[j]) == Ok(r.value[j])
  {
    if samples == [] then Ok([])
    else
      var n := |samples| - 1;
      assert forall j :: 0 <= j < n ==> samples[..n][j] == samples[j];
      var p :- DigitRows(samples[..n]);
      var row :- DigitRow(samples[n]);
      Ok(p + [row])
  }

  /** np.vstack: at least one row, and all rows of one length. */
  function VStack(rows: seq<seq<nat>>): (r: Result<seq<seq<nat>>, Failure>)
    ensures r.Ok? <==> rows != [] && forall j :: 0 <= j < |rows| ==> |rows[j]| == |rows[0]|
    ensures r.Ok? ==> r.value == rows
  {
    if rows == [] then Err(NoSamples)
    else if exists j :: 0 <= j < |rows| && |rows[j]| != |rows[0]| then Err(ShapeMismatch)
    else Ok(rows)
  }

  function LabelsOf(xs: seq<Sample>): (r: seq<string>)
    requires forall j :: 0 <= j < |xs| ==> xs[j].Label?
    ensures |r| == |xs| && forall j :: 0 <= j < |xs| ==> xs[j] == Label(r[j])
  {
    seq(|xs|, j requires 0 <= j < |xs| => xs[j].bits)
  }

  /**
    obtain_multivariate_samples: one row per binary sample, row j the digits
    of sample j; it raises when a sample holds a non-digit, when there are no
    samples, or when the samples differ in length.
  */
  function MultivariateSamples(s: Summary): (r: Result<seq<seq<nat>>, Failure>)
    ensures r.Ok? ==> |r.value| == Total(s) && Total(s) > 0
    ensures r.Ok? ==> forall j :: 0 <= j < |r.value| ==> DigitRow(BinarySamples(s)[j].bits) == Ok(r.value[j])
    ensures r.Ok? ==> forall j :: 0 <= j < |r.value| ==> |r.value[j]| == |r.value[0]|
  {
    var rows :- DigitRows(LabelsOf(BinarySamples(s)));
    VStack(rows)
  }

  /** Every sample is the key of an entry with a positive count. */
  lemma SampleIsOccurringKey(s: Summary, j: nat)
    requires j < Total(s)
    ensures exists i :: 0 <= i < |s| && s[i].count > 0 && BinarySamples(s)[j] == Label(s[i].key)
  {
    SampleIsOccurringKeyAux(s, j);
  }

  lemma {:induction false} SampleIsOccurringKeyAux(s: Summary, j: nat)
    requires j < Total(s)
    ensures exists i :: 0 <= i < |s| && s[i].count > 0 && BinarySamples(s)[j] == Label(s[i].key)
  {
    var n := |s| - 1;
    var prefix := BinarySamples(s[..n]);
    assert BinarySamples(s) == prefix + Repeat(Label(s[n].key), s[n].count);
    if j < |prefix| {
      SampleIsOccurringKeyAux(s[..n], j);
      var i :| 0 <= i < |s[..n]| && s[..n][i].count > 0 && prefix[j] == Label(s[..n][i].key);
      assert s[i] == s[..n][i];
    } else {
      assert BinarySamples(s)[j] == Label(s[n].key);
    }
  }

  /** Every key counted at least once shows up among the samples. */
  lemma OccurringKeyIsSample(s: Summary, i: nat)
    requires i < |s| && s[i].count > 0
    ensures Total(s[..i]) < Total(s) && BinarySamples(s)[Total(s[..i])] == Label(s[i].key)
  {
    assert RawSamples(s, Binary) == Ok(BinarySamples(s));
    SampleAt(s, Binary, i, 0);
  }

  /** Every key of positive count has the same length. */
  ghost predicate UniformWidth(s: Summary) {
    forall i, j :: 0 <= i < |s| && 0 <= j < |s| && s[i].count > 0 && s[j].count > 0 ==> |s[i].key| == |s[j].key|
  }

  /**
    For a histogram of bit-string keys the matrix exists exactly when there
    is a sample and all keys that occur have one width; its entries are then
    0 or 1 and its width is that of the keys. Nothing is padded or cut.
  */
  lemma MultivariateOfBitStrings(s: Summary)
    requires forall i :: 0 <= i < |s| ==> IsBitString(s[i].key)
    ensures MultivariateSamples(s).Ok? <==> Total(s) > 0 && UniformWidth(s)
    ensures MultivariateSamples(s).Ok? ==>
      forall j, t :: 0 <= j < |MultivariateSamples(s).value| && 0 <= t < |MultivariateSamples(s).value[j]| ==>
        MultivariateSamples(s).value[j][t] <= 1
    ensures MultivariateSamples(s).Ok? ==>
      forall i :: 0 <= i < |s| && s[i].count > 0 ==> |MultivariateSamples(s).value[0]| == |s[i].key|
  {
    var bin := BinarySamples(s);
    var labels := LabelsOf(bin);
    forall j | 0 <= j < |labels|
      ensures IsBitString(labels[j])
    {
      SampleIsOccurringKey(s, j);
    }
    assert forall j :: 0 <= j < |labels| ==> DigitRow(labels[j]).Ok?;
    var rows := DigitRows(labels).value;
    assert forall j :: 0 <= j < |rows| ==> |rows[j]| == |labels[j]|;
    if Total(s) > 0 && UniformWidth(s) {
      forall j | 0 <= j < |rows|
        ensures |rows[j]| == |rows[0]|
      {
        SampleIsOccurringKey(s, j);
        SampleIsOccurringKey(s, 0);
      }
    }
    if MultivariateSamples(s).Ok? {
      forall i, i' | 0 <= i < |s| && 0 <= i' < |s| && s[i].count > 0 && s[i'].count > 0
        ensures |s[i].key| == |s[i'].key|
      {
        OccurringKeyIsSample(s, i);
        OccurringKeyIsSample(s, i');
      }
      forall i | 0 <= i < |s| && s[i].count > 0
        ensures |rows[0]| == |s[i].key|
      {
        OccurringKeyIsSample(s, i);
      }
      forall j, t | 0 <= j < |rows| && 0 <= t < |rows[j]|
        ensures rows[j][t] <= 1
      {
        assert DigitValue(labels[j][t]) == Some(rows[j][t]);
        assert IsBit(labels[j][t]);
      }
    }
  }
}

=== FILE: samplesize.dfy ===
/**
  estimate_n_samples_needed (lib/qfl.py): how many shots each platform must
  take. The qdiff formula is evaluated over exact reals:
  int(1/sqrt(1-c) * sqrt(2^q) * t^-2) is the integer square root of
  2^q / ((1 - c) * t^4).
*/
module SampleSize {
  import opened Wrappers
  import Samples

  /** The configuration keys the estimator reads. */
  datatype SampleSizeConfig = SampleSizeConfig(
    strategy: Option<string>,       // strategy_sample_size_estimation
    fixedSampleSize: int,           // fixed_sample_size
    qdiffThreshold: real,           // qdiff_user_defined_threshold
    qdiffConfidence: real)          // qdiff_confidence_level

  /** The largest n with n * n <= x. */
  function FloorSqrt(x: real): (r: nat)
    requires x >= 0.0
    ensures (r * r) as real <= x < ((r + 1) * (r + 1)) as real
  {
    FloorSqrtFrom(x, 0)
  }

  function FloorSqrtFrom(x: real, n: nat): (r: nat)
    requires (n * n) as real <= x
    ensures n <= r
    ensures (r * r) as real <= x < ((r + 1) * (r + 1)) as real
    decreases x.Floor - n
  {
    if ((n + 1) * (n + 1)) as real <= x then
      assert n + 1 <= (n + 1) * (n + 1);
      FloorSqrtFrom(x, n + 1)
    else n
  }

  /** Only one natural number has x between its square and the next square. */
  lemma FloorSqrtUnique(x: real, a: nat, b: nat)
    requires (a * a) as real <= x < ((a + 1) * (a + 1)) as real
    requires (b * b) as real <= x < ((b + 1) * (b + 1)) as real
    ensures a == b
  {
    if a < b {
      SquareMonotone(a + 1, b);
    } else if b < a {
      SquareMonotone(b + 1, a);
    }
  }

  lemma SquareMonotone(a: nat, b: nat)
    requires a <= b
    ensures a * a <= b * b
  {
    assert a * a <= a * b <= b * b;
  }

  function Square(x: real): real { x * x }

  /** The number under the square root in the qdiff formula: 2^q / ((1 - c) * t^4). */
  function QdiffRadicand(nMeasuredQubits: nat, threshold: real, confidence: real): (x: real)
    requires confidence < 1.0 && threshold != 0.0
    ensures x > 0.0
  {
    SquarePositive(threshold);
    SquarePositive(Square(threshold));
    ProductPositive(1.0 - confidence, Square(Square(threshold)));
    QuotientPositive(Samples.Pow2(nMeasuredQubits) as real, (1.0 - confidence) * Square(Square(threshold)));
    Samples.Pow2(nMeasuredQubits) as real / ((1.0 - confidence) * Square(Square(threshold)))
  }

  lemma SquarePositive(x: real)
    requires x != 0.0
    ensures Square(x) > 0.0
  {
    if x > 0.0 {
      calc { Square(x); == x * x; > 0.0; }
    } else {
      calc { Square(x); == x * x; == (-x) * (-x); > 0.0; }
    }
  }

  lemma ProductPositive(a: real, b: real)
    requires a > 0.0 && b > 0.0
    ensures a * b > 0.0
  {
  }

  lemma QuotientPositive(a: real, b: real)
    requires a > 0.0 && b > 0.0
    ensures a / b > 0.0
  {
    assert (a / b) * b == a;
  }

  /**
    The estimate: the fixed size when no strategy is set, the qdiff formula
    for "qdiff", and nothing (None) for any other strategy. The formula
    fails when 1 - c is negative (sqrt) or zero, or when the threshold is zero.
  */
  function EstimateSamplesNeeded(config: SampleSizeConfig, nMeasuredQubits: nat): (r: Result<Option<int>, Failure>)
    ensures config.strategy.None? ==> r == Ok(Some(config.fixedSampleSize))
    ensures config.strategy.Some? && config.strategy.value != "qdiff" ==> r == Ok(None)
    ensures config.strategy == Some("qdiff") ==>
      (r.Err? <==> config.qdiffConfidence >= 1.0 || config.qdiffThreshold == 0.0)
    ensures config.strategy == Some("qdiff") && config.qdiffConfidence > 1.0 ==> r == Err(MathDomain)
    ensures config.strategy == Some("qdiff") && r.Ok? ==>
      var x := QdiffRadicand(nMeasuredQubits, config.qdiffThreshold, config.qdiffConfidence);
      && r.value.Some? && r.value.value >= 0
      && (r.value.value * r.value.value) as real <= x < ((r.value.value + 1) * (r.value.value + 1)) as real
  {
    match config.strategy
    case None => Ok(Some(config.fixedSampleSize))
    case Some(name) =>
      if name != "qdiff" then Ok(None)
      else if config.qdiffConfidence > 1.0 then Err(MathDomain)
      else if config.qdiffConfidence == 1.0 || config.qdiffThreshold == 0.0 then Err(ZeroDivision)
      else Ok(Some(FloorSqrt(QdiffRadicand(nMeasuredQubits, config.qdiffThreshold, config.qdiffConfidence))))
  }

  /** One measured qubit, threshold 0.1 and confidence 0.99 call for 1414 shots. */
  lemma QdiffExample(fixed: int)
    ensures EstimateSamplesNeeded(SampleSizeConfig(Some("qdiff"), fixed, 0.1, 0.99), 1) == Ok(Some(1414))
  {
    var x := QdiffRadicand(1, 0.1, 0.99);
    assert x == 2000000.0;
    var r := EstimateSamplesNeeded(SampleSizeConfig(Some("qdiff"), fixed, 0.1, 0.99), 1);
    FloorSqrtUnique(x, r.value.value, 1414);
  }

  /** Confidence 1 is rejected, whatever the other settings. */
  lemma FullConfidenceFails(fixed: int, threshold: real, nMeasuredQubits: nat)
    ensures EstimateSamplesNeeded(SampleSizeConfig(Some("qdiff"), fixed, threshold, 1.0), nMeasuredQubits).Err?
  {
  }
}

=== FILE: sorting.dfy ===
/**
  Sorting by a real-valued key, standing in for `DataFrame.sort_values` on one
  column. pandas sorts a single column with an unstable quicksort, so the model
  does not rely on how ties come out: the lemmas at the end say what every
  sorted permutation of the same rows has in common.
*/
module Sorting {

  ghost predicate SortedBy<T>(s: seq<T>, key: T -> real) {
    forall i, j :: 0 <= i < j < |s| ==> key(s[i]) <= key(s[j])
  }

  /** Insert x into a sorted sequence before the first element whose key is not smaller. */
  function Insert<T>(x: T, s: seq<T>, key: T -> real): (r: seq<T>)
    requires SortedBy(s, key)
    ensures SortedBy(r, key)
    ensures multiset(r) == multiset(s) + multiset{x}
    ensures |r| == |s| + 1
    ensures r[0] == (if s == [] || key(x) <= key(s[0]) then x else s[0])
  {
    if s == [] || key(x) <= key(s[0]) then [x] + s
    else
      var rest := Insert(x, s[1..], key);
      assert s == [s[0]] + s[1..];
      [s[0]] + rest
  }

  /** An ascending arrangement of s by key. */
  function SortBy<T>(s: seq<T>, key: T -> real): (r: seq<T>)
    ensures SortedBy(r, key)
    ensures multiset(r) == multiset(s)
    ensures |r| == |s|
  {
    if s == [] then []
    else
      assert s == [s[0]] + s[1..];
      Insert(s[0], SortBy(s[1..], key), key)
  }

  /** The sequence s without its element at position m, and what it holds. */
  function RemoveAt<T>(s: seq<T>, m: nat): (r: seq<T>)
    requires m < |s|
    ensures |r| == |s| - 1
    ensures forall i :: 0 <= i < |r| ==> r[i] == (if i < m then s[i] else s[i + 1])
    ensures multiset(r) == multiset(s) - multiset{s[m]}
  {
    assert s == s[..m] + [s[m]] + s[m + 1..];
    s[..m] + s[m + 1..]
  }

  /** Removing one element keeps a sequence sorted. */
  lemma RemoveAtKeepsSorted<T>(s: seq<T>, m: nat, key: T -> real)
    requires SortedBy(s, key) && m < |s|
    ensures SortedBy(RemoveAt(s, m), key)
  {
    var r := RemoveAt(s, m);
    forall i, j | 0 <= i < j < |r|
      ensures key(r[i]) <= key(r[j])
    {
      var i' := if i < m then i else i + 1;
      var j' := if j < m then j else j + 1;
      assert r[i] == s[i'] && r[j] == s[j'] && i' < j';
    }
  }

  /** The smallest keys of two sorted permutations of the same elements agree. */
  lemma SortedPermutationsShareFirstKey<T>(s1: seq<T>, s2: seq<T>, key: T -> real)
    requires SortedBy(s1, key) && SortedBy(s2, key)
    requires multiset(s1) == multiset(s2) && s1 != []
    ensures s2 != [] && key(s1[0]) == key(s2[0])
    ensures s1[0] in s2
  {
    assert s1[0] in multiset(s2);
    assert s2[0] in multiset(s1);
  }

  /** Two sorted permutations of the same elements carry the same keys, position by position. */
  lemma {:induction false} SortedPermutationsShareKeys<T>(s1: seq<T>, s2: seq<T>, key: T -> real)
    requires SortedBy(s1, key) && SortedBy(s2, key)
    requires multiset(s1) == multiset(s2)
    ensures |s1| == |s2|
    ensures forall j :: 0 <= j < |s1| ==> key(s1[j]) == key(s2[j])
    decreases |s1|
  {
    assert |s1| == |multiset(s1)| == |multiset(s2)| == |s2|;
    if s1 != [] {
      SortedPermutationsShareFirstKey(s1, s2, key);
      var m :| 0 <= m < |s2| && s2[m] == s1[0];
      RemoveAtKeepsSorted(s2, m, key);
      var rest2 := RemoveAt(s2, m);
      assert s1 == [s1[0]] + s1[1..];
      assert multiset(s1[1..]) == multiset(s1) - multiset{s1[0]};
      SortedPermutationsShareKeys(s1[1..], rest2, key);
      KeysAgreeAroundRemoved(s1, s2, m, key);
    }
  }

  /**
    Once the tail of s1 matches s2 with position m removed, key by key, and
    s2[m] is s1's first element, s1 and s2 match key by key.
  */
  lemma KeysAgreeAroundRemoved<T>(s1: seq<T>, s2: seq<T>, m: nat, key: T -> real)
    requires SortedBy(s1, key) && SortedBy(s2, key)
    requires 0 < |s1| == |s2| && m < |s2| && s2[m] == s1[0] && key(s1[0]) == key(s2[0])
    requires forall i :: 0 <= i < |s1| - 1 ==> key(s1[1..][i]) == key(RemoveAt(s2, m)[i])
    ensures forall j :: 0 <= j < |s1| ==> key(s1[j]) == key(s2[j])
  {
    forall j | 0 <= j < |s1|
      ensures key(s1[j]) == key(s2[j])
    {
      if 0 < j <= m {
        assert s1[1..][j - 1] == s1[j] && RemoveAt(s2, m)[j - 1] == s2[j - 1];
        KeyBeforeRemoved(s1, s2, m, key, j);
      } else if j > m {
        assert s1[1..][j - 1] == s1[j] && RemoveAt(s2, m)[j - 1] == s2[j];
      }
    }
  }

  /** Up to the removed position, a key is pinned between s2[j - 1] and s2[m] == s1[0]. */
  lemma KeyBeforeRemoved<T>(s1: seq<T>, s2: seq<T>, m: nat, key: T -> real, j: nat)
    requires SortedBy(s1, key) && SortedBy(s2, key)
    requires 0 < j <= m < |s2| && j < |s1| && s2[m] == s1[0]
    requires key(s1[j]) == key(s2[j - 1])
    ensures key(s1[j]) == key(s2[j])
  {
    assert key(s1[0]) <= key(s1[j]);
    assert key(s2[j - 1]) <= key(s2[j]) <= key(s2[m]);
  }

  /**
    In a sorted sequence whose keys strictly increase across position c, the
    first c elements are exactly the elements whose key lies below the key at c.
  */
  lemma SortedPrefixIsBelowCut<T>(s: seq<T>, c: nat, key: T -> real)
    requires SortedBy(s, key)
    requires 0 < c < |s| && key(s[c - 1]) < key(s[c])
    ensures forall x :: multiset(s[..c])[x] == if key(x) < key(s[c]) then multiset(s)[x] else 0
  {
    assert s == s[..c] + s[c..];
    forall x
      ensures multiset(s[..c])[x] == if key(x) < key(s[c]) then multiset(s)[x] else 0
    {
      if key(x) < key(s[c]) {
        assert forall j :: 0 <= j < |s[c..]| ==> key(s[c..][j]) >= key(s[c]);
        assert x !in s[c..];
      } else {
        assert forall j :: 0 <= j < c ==> key(s[..c][j]) < key(s[c]);
        assert x !in s[..c];
      }
    }
  }
}

=== FILE: wrappers.dfy ===
/** Option and Result, usable with `:-`, and the failures the harness can raise. */
module Wrappers {

  datatype Option<+T> = None | Some(value: T)

  datatype Result<+T, +E> = Ok(value: T) | Err(error: E) {
    predicate IsFailure() {
      Err?
    }

    function PropagateFailure<U>(): Result<U, E>
      requires Err?
    {
      Err(error)
    }

    function Extract(): T
      requires Ok?
    {
      value
    }
  }

  /** The exceptions of the harness that the model makes explicit. */
  datatype Failure =
    | MalformedKey(key: string)          // int(key, 2) raises ValueError
    | NotADigit(sample: string)          // int(x) on a character of a sample raises ValueError
    | NoSamples                          // np.vstack of an empty list of rows
    | ShapeMismatch                      // np.vstack of rows of different lengths
    | EmptySample                        // ks_2samp on an empty sample
    | StatisticFailed(detector: string)  // the distance computation raised
    | UnknownDetector(name: string)      // eval of an unknown detector class name
    | MathDomain                         // sqrt of a negative number
    | ZeroDivision                       // division by zero, or 0.0 ** -2
    | MissingColumn(column: string)      // sort_values on a column the table lacks
    | UnassignedThreshold                // unknown correction method: threshold never bound
}
